=== FILE: README.md ===
# account-shop backend: a Dafny model of its decision logic

This project models the decision logic of the Laravel backend of a
game-account marketplace (dinhdjj/account-shop--back):

- **Account requests.** `AccountController` checks an account request in a
  fixed order. It builds validation rules for the fields an account type
  defines, keyed `"id" . $id`. It reads the same keys back with
  `(int)trim($key, 'id')` to build the pivot "sync" maps. It picks the new
  account's status code from the user's roles. It copies only the filled
  request fields. Inside a database transaction it writes the account and
  its pivots and images, and on failure it deletes the files it stored.
- **Games.** `GameController` does the same bookkeeping for games: a
  publisher guard, the `$gameData` copy, the slug, the editor and creator,
  and the image files around the transaction.
- **Ability queries.** `AuthController::can` parses the `params` string
  into gate arguments.
- **Policies.** The account-type, account-info and discount-code policies
  are modelled as predicates.

How the model represents the framework:

- **Database.** An abstract map of rows, held by a class whose methods
  update it. `DB::beginTransaction()` takes a snapshot, and `DB::rollback()`
  restores it; once a transaction has committed, a rollback changes nothing.
- **File store.** A set of stored paths. An uploaded file is given by the
  path the store will assign to it, and that path is not yet in use.
- **Exceptions.** An exception inside a `try` block is chosen by a fault
  index. Every operation there that may throw is numbered in execution
  order, `DB::beginTransaction()` first as operation 0, and
  `fault == Some(k)` makes operation `k` throw. The operations of the
  `catch` handlers themselves (`DB::rollback()`, `Storage::delete`) are
  taken not to throw; see "## Left out".
- **Oracles.** The validator, `Str::slug`, the gate, whether a model class
  exists, and the game policy's answer to "may this user update this game"
  are parameters. `json_encode` is kept symbolic.

Three handlers return the caught exception instead of answering 500:

- A failed transaction in the account controller's `store` or `update`
  does not answer 500. Its handler cleans up and then returns the caught
  exception itself (`return $th`); the 500 response after it is never
  reached.
- `GameController::store` returns the exception before its rollback and
  its image cleanup, so neither runs. See Findings.

## Model

| member | source | states |
|---|---|---|
| `FieldKeys.DecodeEncodeKey` | app/Http/Controllers/AccountController.php:391-394 | reading a rule key `"id" . $id` back with `(int)trim($key, 'id')` gives the id again for every id up to `PHP_INT_MAX`; a larger id reads as `PHP_INT_MAX` while its digits fit a double, and as 0 once they overflow one (`2^1024 - 2^970` and beyond) |
| `FieldKeys.EncodeKeyInjective` | app/Http/Controllers/AccountController.php:411 | distinct ids get distinct rule keys |
| `FieldKeys.DecodeKeyReads` | app/Http/Controllers/AccountController.php:133 | any run of `i`/`d` characters, then digits, then text that ends the integer (no further digit, no exponent `e`/`E`, no decimal point `.`) reads as `(int)` casts the digits: their value up to `PHP_INT_MAX`, `PHP_INT_MAX` above it, and 0 once the digits overflow a double |
| `FieldKeys.DecodeDoubledPrefix` | app/Http/Controllers/AccountController.php:285 | decoding is not injective: `"idid" . $id` is a different key that reads as `"id" . $id` does, so as the id itself up to `PHP_INT_MAX`, and as `DecodeKey(EncodeKey(id))` beyond |
| `FieldKeys.DecodeNoDigits` | app/Http/Controllers/AccountController.php:143 | a key with no digit at all reads as id 0 |
| `FieldKeys.DigitsValueOfDecimal` | app/Http/Controllers/AccountController.php:391 | the decimal rendering of an id has that id as its value |
| `RuleMaps.MakeRuleAccountInfos` | app/Http/Controllers/AccountController.php:381-399 | the loop builds the info rule map that `InfoRules` defines |
| `RuleMaps.MakeRuleAccountActions` | app/Http/Controllers/AccountController.php:401-415 | the loop builds the action rule map that `ActionRules` defines |
| `RuleMaps.InfoRulesKeys` | app/Http/Controllers/AccountController.php:385-395 | the info rule map has the key `"id" . id` for every info, plus `"id" . id . ".*"` for every array-shaped one, and no other key |
| `RuleMaps.InfoRulesValue` | app/Http/Controllers/AccountController.php:387-395 | an info's rule sits under its key; an array-shaped info has its parent rule there and its element rule under the `.*` key |
| `RuleMaps.ElementsKeyIsNotFieldKey` | app/Http/Controllers/AccountController.php:391-392 | an element key never collides with a field key |
| `RuleMaps.ActionRulesKeys` | app/Http/Controllers/AccountController.php:406-412 | the action rule map has exactly one key per action id |
| `RuleMaps.ActionRulesValue` | app/Http/Controllers/AccountController.php:408-411 | an action's rule demands `true` iff the action is required; otherwise it is the nullable-boolean rule |
| `StatusCodes.RoleIds` | app/Http/Controllers/AccountController.php:420-423 | the user's role ids, one per role and in order |
| `StatusCodes.GetBestStatusCode` | app/Http/Controllers/AccountController.php:417-440 | the two loops compute `StatusFor`, and the result is always in the configured list or is the default |
| `StatusCodes.HeldPivotsMembers` | app/Http/Controllers/AccountController.php:426-429 | the query keeps exactly the account type's pivots whose role the user holds |
| `StatusCodes.BestCodeIsMaximum` | app/Http/Controllers/AccountController.php:432-437 | the loop's result is never negative, bounds every pivot code, and is 0 or one of the codes |
| `StatusCodes.StatusForIsMaximumOrDefault` | app/Http/Controllers/AccountController.php:432-439 | the status is the maximum of 0 and the held roles' codes when that maximum is configured, and the default otherwise |
| `SyncMaps.BuildSync` | app/Http/Controllers/AccountController.php:131-138 | the loop builds the sync map that `SyncOf` defines |
| `SyncMaps.SyncOfKeys` | app/Http/Controllers/AccountController.php:132-136 | an id is in the sync map iff it is allowed and some request key reads as it |
| `SyncMaps.SyncOfLastWins` | app/Http/Controllers/AccountController.php:284-288 | an id's value is the encoding of the value of the last request key that reads as it |
| `SyncMaps.SyncOfEncodedKeys` | app/Http/Controllers/AccountController.php:141-148 | for a request keyed as the rules are, with row ids (at most `PHP_INT_MAX`), the sync map is the request restricted to the allowed ids |
| `Common.TrimLeftFacts` | app/Http/Controllers/AccountController.php:133 | the left half of `trim`: it drops a leading run of listed characters and keeps the rest |
| `Common.TrimRightFacts` | app/Http/Controllers/AccountController.php:285 | the right half of `trim`: it drops a trailing run of listed characters and keeps the rest |
| `Common.SnakeOfLowerCase` | app/Http/Controllers/AccountController.php:100 | `Str::snake` leaves a key without upper-case letters unchanged |
| `Common.SnakeRestCamel` | app/Http/Controllers/GameController.php:49 | `Str::snake` turns a single upper-case letter into `_` and its lower case |
| `Common.SnakeCamel` | app/Http/Controllers/GameController.php:49 | a key with one upper-case letter after a lower-case head becomes the head, `_`, the lower-cased letter and the rest |
| `Common.CopyFilledKeys` | app/Http/Controllers/AccountController.php:96-103 | the copy loop computes `CopyFilled` |
| `Common.CopyFilledFilled` | app/Http/Controllers/AccountController.php:99-101 | a filled key's request value lands under its snake-case column |
| `Common.CopyFilledKeeps` | app/Http/Controllers/AccountController.php:248-252 | a column that no filled key maps to keeps its value, or stays absent |
| `AccountController.CopiedKeysAreColumns` | app/Http/Controllers/AccountController.php:96-98 | username, password, price and description are their own columns, all different |
| `AccountController.CopiedColumns` | app/Http/Controllers/AccountController.php:246-253 | a filled copied key writes the request value to its column; every other column keeps its value |
| `AccountController.NewAccountColumns` | app/Http/Controllers/AccountController.php:95-103 | a new account's columns are exactly the filled copied keys, with the request's values |
| `AccountController.UpdatedAccountKeeps` | app/Http/Controllers/AccountController.php:246-256 | an update keeps the game, type and status and the earlier images, sets the user as last editor, and changes no column that is not a filled copied key |
| `AccountController.AccountStore.Store` | app/Http/Controllers/AccountController.php:48-176 | the guards run in order and nothing is written before all pass: an array `gameId` is uncaught (`find` gives a collection), a missing game 404, an array `accountTypeId` uncaught, an unusable type 404, non-array `accountInfos` uncaught (`Validator::make` throws), invalid infos 422, non-array `accountActions` uncaught, missing actions 422; a throw at `DB::beginTransaction()` is uncaught, because the handler then loops over its undefined list of paths; on success the new row is `NewAccount` and the uploads are stored; after any later throw the rows and files are as before and the exception is returned |
| `AccountController.AccountStore.StoreTransaction` | app/Http/Controllers/AccountController.php:113-172 | after `DB::beginTransaction()`, the transaction commits iff no operation throws; on commit it writes the row with the representative image, the sync maps and the images; otherwise the rows are rolled back and every file stored during the request is deleted |
| `AccountController.AccountStore.StoreRepresentative` | app/Http/Controllers/AccountController.php:117-122 | storing the representative image throws only as the first operation after `DB::beginTransaction()`; otherwise the row names the new path and exactly that path is recorded for deletion on failure |
| `AccountController.AccountStore.StoreTry` | app/Http/Controllers/AccountController.php:113-160 | the `try` block throws iff the fault falls on one of its operations; the files it leaves behind are exactly the recorded paths, all of them uploads, and without a throw the new row carries the image, pivots and image rows |
| `AccountController.AccountStore.SaveAndSync` | app/Http/Controllers/AccountController.php:124-148 | the save and the two syncs leave the row with exactly the given sync maps as its pivots unless one of the three throws, and add no row but the saved one |
| `AccountController.AccountStore.SaveSyncAttach` | app/Http/Controllers/AccountController.php:124-158 | save, syncs and image loop throw iff the fault falls on one of their 3 + 2n operations; without a throw the row holds the sync maps of the request's fields and gains every image |
| `AccountController.AccountStore.AttachImages` | app/Http/Controllers/AccountController.php:152-158 | the image loop appends every image and stores its path, or throws, having stored only paths of the request's images |
| `AccountController.AccountStore.Rollback` | app/Http/Controllers/AccountController.php:161-167 | the handler restores the snapshot and deletes every path recorded for deletion on failure |
| `AccountController.AccountStore.DeletePaths` | app/Http/Controllers/AccountController.php:165-167 | deleting each listed path removes exactly those paths |
| `AccountController.AccountStore.Update` | app/Http/Controllers/AccountController.php:211-333 | the guards come first and write nothing: non-array `accountInfos` is uncaught, invalid infos 422, non-array `accountActions` uncaught, missing actions 422; a throw at `DB::beginTransaction()` is uncaught, as in `Store`, with nothing changed; on success the row becomes `UpdatedAccount`, the uploads are stored, and the old representative image is deleted only if a new one was uploaded; after a throw the rows are as before and the uploads are deleted, but a throw at the commit comes after the old representative image was deleted |
| `AccountController.AccountStore.UpdateTransaction` | app/Http/Controllers/AccountController.php:260-329 | after `DB::beginTransaction()`, the transaction commits iff no operation throws, with the row, file and image bookkeeping described for `Update` |
| `AccountController.AccountStore.UpdateTry` | app/Http/Controllers/AccountController.php:258-314 | the `try` block of `update` throws iff the fault falls on one of its operations; the replaced representative image is gone exactly when the fault, if any, comes at or after the commit, and without a throw the row is updated as `Update` states |
| `AccountController.AccountStore.Destroy` | app/Http/Controllers/AccountController.php:341-343 | `destroy` answers `false` and changes no row and no file |
| `GameController.FindPublisherById` | app/Http/Controllers/GameController.php:36-41 | a `publisherId` sent as a number or as its decimal text finds exactly the publisher with that id, and the 404 guard fires iff there is none |
| `GameController.FindPublisherOther` | app/Http/Controllers/GameController.php:36-41 | null and non-digit text find nothing (404), while `true` is compared as id 1 |
| `GameController.GameKeysColumns` | app/Http/Controllers/GameController.php:45-49 | `order`, `publisherId` and `name` go to the columns `order`, `publisher_id` and `name`, all different |
| `GameController.SnakePublisherId` | app/Http/Controllers/GameController.php:49 | `Str::snake('publisherId')` is `publisher_id` |
| `GameController.GameColumnsCopyFilled` | app/Http/Controllers/GameController.php:45-51 | of `order`, `publisherId` and `name`, exactly the filled ones are copied, under their snake-case names and with the request's values |
| `GameController.StoreData` | app/Http/Controllers/GameController.php:43-55 | `$gameData` can be built exactly when the name is filled, and is then `StoreColumns` |
| `GameController.StoreNeedsName` | app/Http/Controllers/GameController.php:52 | `$gameData['name']` exists exactly when the request's name is filled |
| `GameController.NewGameRowFacts` | app/Http/Controllers/GameController.php:52-62 | a stored game has the slug of its name, the publisher that was found, the user as creator and last editor, and the stored image |
| `GameController.UpdateDataFacts` | app/Http/Controllers/GameController.php:97-108 | `update` writes a slug iff the name was supplied, always sets the user as last editor, and never writes the creator |
| `GameController.UpdatedGameRowKeeps` | app/Http/Controllers/GameController.php:120 | the row update keeps every column it does not write, the creator among them |
| `GameController.UpdatedGameRowImage` | app/Http/Controllers/GameController.php:114-120 | after an update the image column names the new image if one was uploaded, and the old one otherwise |
| `GameController.GameStore.Store` | app/Http/Controllers/GameController.php:33-74 | an unknown publisher gives 404 and writes nothing; a missing name, or an array `publisherId` (for which `find` returns a collection that passes the null check and has no `id`), throws outside the handler and writes nothing; on success the new row is `NewGameRow`; after a throw no row is kept but a stored image stays in the file store |
| `GameController.GameStore.StoreWithCleanup` | app/Http/Controllers/GameController.php:64-71 | with the handler running as evidently intended, a throw leaves the rows and the files as they were and answers 500 |
| `GameController.GameStore.Update` | app/Http/Controllers/GameController.php:94-133 | a throw before the commit rolls back, deletes the new image and answers 500; the old image is deleted only after the commit and only if a new image was uploaded; a throw while deleting it leaves the committed row naming the new image, which the handler has deleted |
| `GameController.GameStore.Destroy` | app/Http/Controllers/GameController.php:141-161 | a throw before the commit answers 500 and keeps the row and the files; the image is deleted only after a successful commit |
| `AuthController.Split` | app/Http/Controllers/AuthController.php:70 | `explode` yields at least one piece and no piece contains the separator; there are two or more pieces iff the separator occurs |
| `AuthController.JoinSplit` | app/Http/Controllers/AuthController.php:70 | joining the pieces with the separator gives the original string back |
| `AuthController.SplitJoin` | app/Http/Controllers/AuthController.php:75 | splitting separator-free pieces joined by the separator gives the pieces back |
| `AuthController.ParseArguments` | app/Http/Controllers/AuthController.php:70-81 | the loop fails iff some `model:key` piece names a class that does not exist; otherwise there is one argument per comma-separated piece, in order, each parsed by `ParseParam` |
| `AuthController.ParseBareName` | app/Http/Controllers/AuthController.php:78-79 | a piece without `:` becomes the class name `App\Models\` followed by the piece |
| `AuthController.ParseLookup` | app/Http/Controllers/AuthController.php:74-77 | `model:key` becomes a lookup of `key` in `App\Models\model`, and segments after a second `:` are ignored |
| `AuthController.Can` | app/Http/Controllers/AuthController.php:66-89 | missing or blank `params` gives 422 before any parsing; a lookup in a class that does not exist throws before the gate is asked; otherwise the answer is success iff the gate allows the ability on the parsed arguments, and 403 if not |
| `AccountTypePolicy.ViewOpenDeleteClosed` | app/Policies/AccountTypePolicy.php:20-82 | `viewAny` and `view` always allow; `delete` always denies |
| `AccountTypePolicy.UpdateIsUpdatingGame` | app/Policies/AccountTypePolicy.php:44-70 | `manage` holds iff the user may update the type's game, and `update` is `manage` |
| `AccountTypePolicy.CreateIsUpdatingGame` | app/Policies/AccountTypePolicy.php:55-58 | `create` for a game holds iff the user may update that game |
| `AccountInfoPolicy.Delegates` | app/Policies/AccountInfoPolicy.php:44-82 | `manage` and `create` ask the account-type policy's `update`; `update` and `delete` are `manage` |
| `AccountInfoPolicy.DecidedByGame` | app/Policies/AccountInfoPolicy.php:46 | along the chain, a user may update or delete an info iff they may update the game owning its account type |
| `DiscountCodePolicy.ManageAndCreateArePermissions` | app/Policies/DiscountCodePolicy.php:42-56 | `manage` and `create` are the `manage_discount_code` and `create_discount_code` permissions |
| `DiscountCodePolicy.UpdateNeedsPermission` | app/Policies/DiscountCodePolicy.php:67 | without `update_discount_code`, nobody may update a code, not even its creator or a manager |
| `DiscountCodePolicy.CreatorMayUpdate` | app/Policies/DiscountCodePolicy.php:67-68 | with the update permission, the creator may update the code |
| `DiscountCodePolicy.ManagerMayUpdate` | app/Policies/DiscountCodePolicy.php:67-68 | with the update permission, a manager may update codes created by others |
| `DiscountCodePolicy.OthersMayNotUpdate` | app/Policies/DiscountCodePolicy.php:67-68 | a user who is neither the creator nor a manager may not update the code |

## Left out

- `AccountController.approve`: it calls classes that are not part of this model.
- `index` and `show` in both controllers: they only wrap rows in resources.
- `login`, `logout` and `profile` in `AuthController`: session and authentication I/O.
- The storing, stored, updating and updated account hooks are not part of this model. A throw inside the hook that runs just before a save is counted as a throw of that save.
- The buying flow and its status bands are not part of this model: its controller is not among the source files.
- The form-request rule arrays run before a controller action. They are not modelled, so each action is modelled as if the request reached it, with whatever shape its inputs have (an array id, a scalar where an array is expected).
- The validator is an oracle. So are `Str::slug`, the game policy's answer and the gate. `json_encode` is a symbolic wrapper. What the rule texts an account info's stored rule makes actually mean is not modelled.
- FieldKeys.IntCast: PHP's `(int)` cast is modelled for integer-shaped text: exact within the 64-bit `int` range, `PHP_INT_MAX` or `PHP_INT_MIN` beyond it, and 0 once the text overflows a double to infinity. Text that PHP reads as a float, because the digits go on with `.` or an exponent (`"5e3"` and `"5.e3"` read as 5000, `"5.9e3"` as 5900), is read by its leading digits only, since exact double rounding is out of scope; so a request key such as `"id5e3"` is synced by `SyncOf` as id 5. `DecodeKeyReads` requires the digits to be followed by no digit, `e`, `E` or `.`, so its claim covers only text PHP reads as an integer.
- Common.SnakeOfLowerCase: `Str::snake` is modelled without its whitespace handling, and only ASCII letters count as upper case, whereas `mb_strtolower` also lowers other letters (it changes `"abÉ"`). The keys it is applied to are ASCII literals without whitespace.
- GameController.FindPublisherOther: `Publisher::find` is modelled by `FindPublisher`, a stand-in for Eloquent's lookup and the database's comparison. Numbers, digit strings, booleans (as 1 and 0), null and arrays (a collection) are modelled. A string with a sign, spaces, a fractional part or trailing text is treated as finding nothing, although the database may convert its numeric prefix.
- `AuthController.Can`: whether a model class exists is a parameter. Which row `find` returns for an existing class is left to the gate, and the argument stays symbolic. An uncaught error is the only outcome modelled for a missing class; the error's kind and message are not.
- AccountController.AccountStore.Store and `Update`: the handler's own `DB::rollback()` and `Storage::delete` calls (AccountController.php:163-167 and 320-324) are taken not to throw. A throw there would escape the handler with the rows restored and only some of the uploads deleted.
- GameController.GameStore.Update, `Destroy` and `StoreWithCleanup`: the handlers' `DB::rollback()` and `Storage::delete` calls are taken not to throw, although the same `Storage::delete` after a commit counts as an operation that may throw. `StoreWithCleanup` deletes `$imagePath ?? null`, as `update`'s handler does, since a plain `$imagePath` would be undefined after a throw before the image is stored.
- `Storage::delete(null)` deletes nothing. The model treats it as an operation that may still throw, and as deleting nothing.
- The open transaction that `GameController::store` leaves behind on a throw is modelled as discarded when the connection closes.
- Auto-increment ids are not reused after a rollback. The model never lowers `nextId`, and no property depends on the id values.
- Soft deletes are not modelled. The rest of the model does not depend on them.
- The policy methods with empty bodies (`restore`, `forceDelete`, and the view methods of the account-info and discount-code policies, and `DiscountCodePolicy::delete`) return null, which denies. They are not modelled.
- Gate "before" hooks, such as a super-administrator override, are not part of this model.
- `DiscountCodePolicy`: a code whose creator row is missing makes `update` throw in the source. The model compares creator ids instead.
- The input-trimming middleware is not modelled. `filled` trims, so the copied fields are unaffected; the request values themselves are stored as given.
- The number of fallible operations per transaction counts the hooks and the framework calls as single steps. Finer failure points inside them, such as a sync that half-applies, are not modelled.

## Findings

| source | as written | input that shows it | evidently intended | confidence | as-written member | corrected member |
|---|---|---|---|---|---|---|
| app/Http/Controllers/GameController.php:64-71 | the handler returns the exception first, so the rollback, the image deletion and the 500 answer after it never run | a request with a known publisher, a name and an image, where creating the row throws (fault index 2): the stored image stays in the file store | roll back, delete the stored image (`$imagePath ?? null`, as `update` does) and answer 500, leaving rows and files as they were | medium; not executed | `GameController.GameStore.Store` | `GameController.GameStore.StoreWithCleanup` |

=== FILE: account_controller.dfy ===
/** The account controller's `store`, `update` and `destroy` actions over an
    abstract database (a map of account rows) and file store (a set of
    stored paths). The validator is an oracle; an exception inside the
    transaction is chosen by a fault index (see `AccountStore`). */
module AccountController {
  import opened Common
  import opened FieldKeys
  import opened RuleMaps
  import opened StatusCodes
  import opened SyncMaps

  /** The request keys both actions copy into columns when they are filled. */
  const CopiedKeys: seq<string> := ["username", "password", "price", "description"]

  /** An account type as the current user sees it: the info fields the
      user's role must fill, the actions it must perform, and the roles that
      may use the type with the status code each one gives. */
  datatype AccountType = AccountType(
    id: nat,
    neededInfos: seq<AccountInfo>,
    neededActions: seq<AccountAction>,
    rolePivots: seq<RolePivot>)

  /** A game and those of its account types the current user's role may use. */
  datatype Game = Game(id: nat, usableTypes: map<nat, AccountType>)

  /** The rows a request reads but does not write. */
  datatype Catalog = Catalog(games: map<nat, Game>, types: map<nat, AccountType>)

  /** The authenticated user. */
  datatype User = User(id: nat, roles: seq<Role>)

  /** The validator: does `data` satisfy `rules`? */
  type Validator = (Fields, map<string, Rule>) -> bool

  /** The parts of an account request the actions read. An uploaded file is
      given by the path the file store assigns to it. `infosIsArray` and
      `actionsIsArray` say whether `accountInfos` and `accountActions` came
      as arrays (an absent one is the empty array `?? []` gives); a scalar
      is not an array, and the fields are then empty. */
  datatype AccountInput = AccountInput(
    input: map<string, Json>,
    infosIsArray: bool,
    accountInfos: Fields,
    actionsIsArray: bool,
    accountActions: Fields,
    representativeImage: Option<string>,
    images: seq<string>)

  /** A request id the controller passes to `find`: one id, or an array of
      ids, for which `find` returns a collection, never null. */
  datatype IdParam = Id(id: nat) | IdArray

  /** Both field maps are arrays and pass `Validator::make` under the rules
      of account type `t`. */
  predicate FieldsPass(a: AccountInput, t: AccountType, validates: Validator)
  {
    a.infosIsArray && validates(a.accountInfos, InfoRules(t.neededInfos)) &&
    a.actionsIsArray && validates(a.accountActions, ActionRules(t.neededActions))
  }

  /** An account row with its info and action pivots and its image rows. */
  datatype Account = Account(
    columns: map<string, Json>,
    gameId: nat,
    accountTypeId: nat,
    statusCode: int,
    representativeImagePath: Option<string>,
    lastUpdatedEditorId: Option<nat>,
    infos: map<nat, PivotValue>,
    actions: map<nat, PivotValue>,
    images: seq<string>)

  function InfoIds(infos: seq<AccountInfo>): set<nat>
  {
    set info | info in infos :: info.id
  }

  function ActionIds(actions: seq<AccountAction>): set<nat>
  {
    set action | action in actions :: action.id
  }

  function RepresentativePath(a: AccountInput): set<string>
  {
    if a.representativeImage.Some? then {a.representativeImage.value} else {}
  }

  /** Every path the request's uploads are stored under. */
  function UploadPaths(a: AccountInput): set<string>
  {
    RepresentativePath(a) + Elements(a.images)
  }

  /** The number of operations that may throw inside `store`'s transaction
      after `DB::beginTransaction()` (operation 0): storing the representative
      image, saving the row, the two syncs, storing and recording each image,
      and the commit. */
  function StoreSteps(a: AccountInput): nat
  {
    (if a.representativeImage.Some? then 1 else 0) + 3 + 2 * |a.images| + 1
  }

  /** The same for `update`, which also deletes the replaced representative
      image before it commits. */
  function UpdateSteps(a: AccountInput): nat
  {
    (if a.representativeImage.Some? then 2 else 0) + 3 + 2 * |a.images| + 1
  }

  /** The row `store` writes when nothing throws. */
  function NewAccount(a: AccountInput, game: Game, accountType: AccountType, user: User, config: StatusConfig): Account
  {
    Account(
      CopyFilled(map[], a.input, CopiedKeys),
      game.id,
      accountType.id,
      StatusFor(user.roles, accountType.rolePivots, config),
      a.representativeImage,
      None,
      SyncOf(a.accountInfos, InfoIds(accountType.neededInfos)),
      SyncOf(a.accountActions, ActionIds(accountType.neededActions)),
      a.images)
  }

  /** The row `update` leaves when nothing throws. */
  function UpdatedAccount(account: Account, a: AccountInput, accountType: AccountType, user: User): Account
  {
    account.(
      columns := CopyFilled(account.columns, a.input, CopiedKeys),
      lastUpdatedEditorId := Some(user.id),
      representativeImagePath :=
        if a.representativeImage.Some? then a.representativeImage else account.representativeImagePath,
      infos := SyncOf(a.accountInfos, InfoIds(accountType.neededInfos)),
      actions := SyncOf(a.accountActions, ActionIds(accountType.neededActions)),
      images := account.images + a.images)
  }

  /** The file `update` deletes as replaced: the old representative image, if
      a new one was uploaded and there was an old one. */
  function ReplacedImage(account: Account, a: AccountInput): set<string>
  {
    if a.representativeImage.Some? && account.representativeImagePath.Some?
    then {account.representativeImagePath.value} else {}
  }

  /** The copied request keys are already snake case, so each one is its own
      column, and no two share a column. */
  lemma CopiedKeysAreColumns()
    ensures forall i :: 0 <= i < |CopiedKeys| ==> Snake(CopiedKeys[i]) == CopiedKeys[i]
    ensures DistinctColumns(CopiedKeys)
  {
    forall i | 0 <= i < |CopiedKeys| ensures Snake(CopiedKeys[i]) == CopiedKeys[i] {
      CopiedKeyIsLowerCase(i);
      SnakeOfLowerCase(CopiedKeys[i]);
    }
    forall i, j | 0 <= i < j < |CopiedKeys| ensures CopiedKeys[i] != CopiedKeys[j] {
      CopiedKeysDiffer(i, j);
    }
  }

  lemma CopiedKeyIsLowerCase(i: nat)
    requires i < |CopiedKeys|
    ensures forall j :: 0 <= j < |CopiedKeys[i]| ==> !IsUpper(CopiedKeys[i][j])
  {
  }

  lemma CopiedKeysDiffer(i: nat, j: nat)
    requires i < j < |CopiedKeys|
    ensures CopiedKeys[i] != CopiedKeys[j]
  {
    assert CopiedKeys[i][0] != CopiedKeys[j][0] || CopiedKeys[i][1] != CopiedKeys[j][1];
  }

  /** Which columns a request writes: a copied key that is filled lands in its
      column with the request's value; every other column of the row keeps
      its value, or stays absent. */
  lemma CopiedColumns(columns: map<string, Json>, input: map<string, Json>, column: string)
    ensures column in CopiedKeys && Filled(input, column) ==>
      column in CopyFilled(columns, input, CopiedKeys) &&
      CopyFilled(columns, input, CopiedKeys)[column] == input[column]
    ensures !(column in CopiedKeys && Filled(input, column)) ==>
      (column in CopyFilled(columns, input, CopiedKeys) <==> column in columns) &&
      (column in columns ==> CopyFilled(columns, input, CopiedKeys)[column] == columns[column])
  {
    CopiedKeysAreColumns();
    if column in CopiedKeys && Filled(input, column) {
      var i :| 0 <= i < |CopiedKeys| && CopiedKeys[i] == column;
      CopyFilledFilled(columns, input, CopiedKeys, i);
    } else {
      CopyFilledKeeps(columns, input, CopiedKeys, column);
    }
  }

  /** A new account's columns are exactly the filled copied keys. */
  lemma NewAccountColumns(a: AccountInput, game: Game, accountType: AccountType, user: User, config: StatusConfig, column: string)
    ensures var columns := NewAccount(a, game, accountType, user, config).columns;
      (column in columns <==> column in CopiedKeys && Filled(a.input, column)) &&
      (column in columns ==> columns[column] == a.input[column])
  {
    CopiedColumns(map[], a.input, column);
  }

  /** An update keeps the row's game, type and status, names the user as
      the last editor, and writes only filled copied keys over its columns. */
  lemma UpdatedAccountKeeps(account: Account, a: AccountInput, accountType: AccountType, user: User, column: string)
    ensures var u := UpdatedAccount(account, a, accountType, user);
      u.gameId == account.gameId && u.accountTypeId == account.accountTypeId &&
      u.statusCode == account.statusCode && u.lastUpdatedEditorId == Some(user.id) &&
      u.images[..|account.images|] == account.images &&
      (!(column in CopiedKeys && Filled(a.input, column)) ==>
        (column in u.columns <==> column in account.columns) &&
        (column in account.columns ==> u.columns[column] == account.columns[column]))
  {
    CopiedColumns(account.columns, a.input, column);
  }

  /** The account rows and the stored files. Inside a transaction every
      operation that can throw is numbered in execution order, and
      `fault == Some(k)` makes operation `k` throw; a throw jumps to the
      handler, which rolls the rows back and deletes the files this request
      stored. */
  class AccountStore {
    var accounts: map<nat, Account>
    var storage: set<string>
    var nextId: nat

    ghost predicate Valid()
      reads this
    {
      forall id :: id in accounts ==> id < nextId
    }

    constructor ()
      ensures Valid() && accounts == map[] && storage == {}
    {
      accounts := map[];
      storage := {};
      nextId := 1;
    }

    /** Deletes each path of `paths` from the file store
        (`foreach (...) Storage::delete($imagePath)`). */
    method DeletePaths(paths: seq<string>)
      modifies this`storage
      ensures storage == old(storage) - Elements(paths)
    {
      for i := 0 to |paths|
        invariant storage == old(storage) - Elements(paths[..i])
      {
        assert paths[..i + 1] == paths[..i] + [paths[i]];
        ElementsSnoc(paths[..i], paths[i]);
        storage := storage - {paths[i]};
      }
      assert paths[..|paths|] == paths;
    }

    /** The image loop inside both transactions: store each image, remember
        its path for deletion on failure, then add an image row. Its
        operations are numbered from `step`. */
    method AttachImages(id: nat, images: seq<string>, step: nat, fault: Option<nat>)
      returns (thrown: bool, stored: seq<string>)
      requires id in accounts
      modifies this`accounts, this`storage
      ensures thrown <==> fault.Some? && step <= fault.value < step + 2 * |images|
      ensures Elements(stored) <= Elements(images)
      ensures storage == old(storage) + Elements(stored)
      ensures accounts.Keys == old(accounts).Keys
      ensures !thrown ==> (stored == images &&
        accounts == old(accounts)[id := old(accounts)[id].(images := old(accounts)[id].images + images)])
    {
      stored := [];
      thrown := false;
      var next := step;
      ghost var row := accounts[id];
      assert row.(images := row.images + images[..0]) == row;
      assert old(accounts)[id := row] == old(accounts);
      for i := 0 to |images|
        invariant next == step + 2 * i
        invariant stored == images[..i]
        invariant !(fault.Some? && step <= fault.value < next)
        invariant storage == old(storage) + Elements(stored)
        invariant accounts == old(accounts)[id := row.(images := row.images + images[..i])]
      {
        var imagePath := images[i];
        assert images[..i + 1] == images[..i] + [imagePath];
        assert row.images + images[..i + 1] == (row.images + images[..i]) + [imagePath];
        if fault == Some(next) {
          return true, stored;
        }
        next := next + 1;
        storage := storage + {imagePath};
        ElementsSnoc(stored, imagePath);
        stored := stored + [imagePath];
        if fault == Some(next) {
          return true, stored;
        }
        next := next + 1;
        accounts := accounts[id := accounts[id].(images := accounts[id].images + [imagePath])];
      }
      assert images[..|images|] == images;
    }

    method Store(
      gameId: IdParam, accountTypeId: IdParam, a: AccountInput,
      catalog: Catalog, user: User, config: StatusConfig, validates: Validator, fault: Option<nat>)
      returns (r: Response)
      requires Valid()
      requires UploadPaths(a) !! storage
      modifies this
      ensures Valid()
      // the guards, in order; each leaves rows and files as they were
      ensures gameId.IdArray? ==>
        r == Uncaught && accounts == old(accounts) && storage == old(storage)
      ensures gameId.Id? && gameId.id !in catalog.games ==>
        r == Fail(404, GameNotFound) && accounts == old(accounts) && storage == old(storage)
      ensures gameId.Id? && gameId.id in catalog.games && accountTypeId.IdArray? ==>
        r == Uncaught && accounts == old(accounts) && storage == old(storage)
      ensures gameId.Id? && gameId.id in catalog.games && accountTypeId.Id? &&
              accountTypeId.id !in catalog.games[gameId.id].usableTypes ==>
        r == Fail(404, AccountTypeNotFound) && accounts == old(accounts) && storage == old(storage)
      ensures gameId.Id? && gameId.id in catalog.games && accountTypeId.Id? &&
              accountTypeId.id in catalog.games[gameId.id].usableTypes ==>
        var t := catalog.games[gameId.id].usableTypes[accountTypeId.id];
        (!a.infosIsArray ==>
          r == Uncaught && accounts == old(accounts) && storage == old(storage)) &&
        (a.infosIsArray && !validates(a.accountInfos, InfoRules(t.neededInfos)) ==>
          r == Fail(422, InvalidAccountInfos) && accounts == old(accounts) && storage == old(storage)) &&
        (a.infosIsArray && validates(a.accountInfos, InfoRules(t.neededInfos)) && !a.actionsIsArray ==>
          r == Uncaught && accounts == old(accounts) && storage == old(storage)) &&
        (a.infosIsArray && validates(a.accountInfos, InfoRules(t.neededInfos)) && a.actionsIsArray &&
         !validates(a.accountActions, ActionRules(t.neededActions)) ==>
          r == Fail(422, MissingAccountActions) && accounts == old(accounts) && storage == old(storage)) &&
        // past the guards: the transaction
        (FieldsPass(a, t, validates) ==>
          // a throw at `DB::beginTransaction()` reaches the handler before
          // its list of paths is set, and the handler throws in turn
          (fault == Some(0) ==>
            r == Uncaught && accounts == old(accounts) && storage == old(storage)) &&
          (fault != Some(0) && Throws(fault, 1 + StoreSteps(a)) ==>
            r == ThrowableReturned && accounts == old(accounts) && storage == old(storage)) &&
          (!Throws(fault, 1 + StoreSteps(a)) ==>
            r == Ok &&
            accounts == old(accounts)[old(nextId) := NewAccount(a, catalog.games[gameId.id], t, user, config)] &&
            storage == old(storage) + UploadPaths(a)))
    {
      // Validate; `find` with an array of ids gives a collection, on which
      // the next method call throws
      if gameId.IdArray? {
        return Uncaught;
      }
      if gameId.id !in catalog.games {
        return Fail(404, GameNotFound);
      }
      var game := catalog.games[gameId.id];
      if accountTypeId.IdArray? {
        return Uncaught;
      }
      if accountTypeId.id !in game.usableTypes {
        return Fail(404, AccountTypeNotFound);
      }
      var accountType := game.usableTypes[accountTypeId.id];
      // `Validator::make` of a non-array throws a `TypeError`
      if !a.infosIsArray {
        return Uncaught;
      }
      var infoRules := MakeRuleAccountInfos(accountType.neededInfos);
      if !validates(a.accountInfos, infoRules) {
        return Fail(422, InvalidAccountInfos);
      }
      if !a.actionsIsArray {
        return Uncaught;
      }
      var actionRules := MakeRuleAccountActions(accountType.neededActions);
      if !validates(a.accountActions, actionRules) {
        return Fail(422, MissingAccountActions);
      }

      // Make data to save
      var columns := CopyFilledKeys(map[], a.input, CopiedKeys);
      var statusCode := GetBestStatusCode(user.roles, accountType.rolePivots, config);
      var account := Account(columns, game.id, accountType.id, statusCode, None, None, map[], map[], []);

      // DB::beginTransaction(), operation 0: after a throw there the
      // handler's `foreach` reads the undefined `$imagePathsNeedDeleteWhenFail`,
      // and the error it raises escapes the handler
      if fault == Some(0) {
        return Uncaught;
      }
      var committed := StoreTransaction(account, a, InfoIds(accountType.neededInfos), ActionIds(accountType.neededActions), After(fault));
      r := if committed then Ok else ThrowableReturned;
    }

    /** The handler of both transactions: `DB::rollback()` restores the rows,
        then every file stored during the request is deleted. */
    method Rollback(snapshot: map<nat, Account>, pathsToDeleteWhenFail: seq<string>)
      modifies this`accounts, this`storage
      ensures accounts == snapshot && storage == old(storage) - Elements(pathsToDeleteWhenFail)
    {
      accounts := snapshot;
      DeletePaths(pathsToDeleteWhenFail);
    }

    /** `$account->save()` of row `id` followed by the two pivot syncs,
        operations `step` to `step + 2` of a transaction. A sync replaces the
        whole pivot map. */
    method SaveAndSync(id: nat, row: Account, syncInfos: map<nat, PivotValue>, syncActions: map<nat, PivotValue>, step: nat, fault: Option<nat>)
      returns (thrown: bool)
      modifies this`accounts
      ensures accounts.Keys <= old(accounts).Keys + {id}
      ensures thrown <==> fault.Some? && step <= fault.value < step + 3
      ensures !thrown ==> accounts == old(accounts)[id := row.(infos := syncInfos, actions := syncActions)]
    {
      var saved := row.(infos := syncInfos);
      thrown := fault == Some(step);
      if !thrown {
        accounts := accounts[id := row];
        thrown := fault == Some(step + 1);
      }
      if !thrown {
        accounts := accounts[id := saved];
        thrown := fault == Some(step + 2);
      }
      if !thrown {
        accounts := accounts[id := saved.(actions := syncActions)];
      }
    }

    /** The save, the syncs and the image loop, operations `step` to
        `step + 2 + 2 * |a.images|` of both transactions. */
    method SaveSyncAttach(id: nat, row: Account, a: AccountInput, infoIds: set<nat>, actionIds: set<nat>, step: nat, fault: Option<nat>)
      returns (thrown: bool, stored: seq<string>)
      requires Valid() && id < nextId
      modifies this`accounts, this`storage
      ensures Valid()
      ensures thrown <==> fault.Some? && step <= fault.value < step + 3 + 2 * |a.images|
      ensures Elements(stored) <= Elements(a.images)
      ensures storage == old(storage) + Elements(stored)
      ensures !thrown ==> stored == a.images && accounts == old(accounts)[id := row.(
        infos := SyncOf(a.accountInfos, infoIds),
        actions := SyncOf(a.accountActions, actionIds),
        images := row.images + a.images)]
    {
      // building the pivot maps touches no row, so it is done up front
      var syncInfos := BuildSync(a.accountInfos, infoIds);
      var syncActions := BuildSync(a.accountActions, actionIds);
      stored := [];
      thrown := SaveAndSync(id, row, syncInfos, syncActions, step, fault);
      if !thrown {
        thrown, stored := AttachImages(id, a.images, step + 3, fault);
      }
    }

    /** Storing the uploaded representative image, when there is one, the
        first operation after `DB::beginTransaction()` in both transactions:
        the row names the new path, and the path is recorded for deletion on
        failure. */
    method StoreRepresentative(row: Account, a: AccountInput, fault: Option<nat>)
      returns (thrown: bool, newRow: Account, stored: seq<string>)
      modifies this`storage
      ensures thrown <==> a.representativeImage.Some? && fault == Some(0)
      ensures Elements(stored) <= RepresentativePath(a)
      ensures storage == old(storage) + Elements(stored)
      ensures !thrown ==>
        Elements(stored) == RepresentativePath(a) &&
        newRow == row.(representativeImagePath :=
          if a.representativeImage.Some? then a.representativeImage else row.representativeImagePath)
    {
      newRow, stored := row, [];
      thrown := a.representativeImage.Some? && fault == Some(0);
      if a.representativeImage.Some? && !thrown {
        var path := a.representativeImage.value;
        storage := storage + {path};
        newRow := row.(representativeImagePath := Some(path));
        stored := [path];
      }
    }

    /** The transaction of `store` once `DB::beginTransaction()` has
        succeeded, and its handler; `fault` numbers the operations after it
        from 0. An operation that throws passes control to the handler at
        once. */
    method StoreTransaction(account: Account, a: AccountInput, infoIds: set<nat>, actionIds: set<nat>, fault: Option<nat>)
      returns (committed: bool)
      requires Valid()
      requires UploadPaths(a) !! storage
      requires account.representativeImagePath == None && account.images == []
      modifies this
      ensures Valid()
      ensures committed == !Throws(fault, StoreSteps(a))
      ensures committed ==>
        accounts == old(accounts)[old(nextId) := account.(
          representativeImagePath := a.representativeImage,
          infos := SyncOf(a.accountInfos, infoIds),
          actions := SyncOf(a.accountActions, actionIds),
          images := a.images)] &&
        storage == old(storage) + UploadPaths(a)
      ensures !committed ==> accounts == old(accounts) && storage == old(storage)
    {
      // the snapshot `DB::beginTransaction()` took
      var snapshot := accounts;
      var thrown, pathsToDeleteWhenFail := StoreTry(account, a, infoIds, actionIds, fault);
      if thrown {
        Rollback(snapshot, pathsToDeleteWhenFail);
        return false;
      }
      committed := true;
    }

    /** The `try` block of `store` up to and including the commit: whether
        an operation threw, and the paths recorded for deletion on failure. */
    method StoreTry(account: Account, a: AccountInput, infoIds: set<nat>, actionIds: set<nat>, fault: Option<nat>)
      returns (thrown: bool, pathsToDeleteWhenFail: seq<string>)
      requires Valid()
      requires account.representativeImagePath == None && account.images == []
      modifies this
      ensures Valid() && nextId >= old(nextId)
      ensures thrown == Throws(fault, StoreSteps(a))
      ensures storage == old(storage) + Elements(pathsToDeleteWhenFail)
      ensures Elements(pathsToDeleteWhenFail) <= UploadPaths(a)
      ensures !thrown ==>
        accounts == old(accounts)[old(nextId) := account.(
          representativeImagePath := a.representativeImage,
          infos := SyncOf(a.accountInfos, infoIds),
          actions := SyncOf(a.accountActions, actionIds),
          images := a.images)] &&
        Elements(pathsToDeleteWhenFail) == UploadPaths(a)
    {
      var id := nextId;
      var row;
      thrown, row, pathsToDeleteWhenFail := StoreRepresentative(account, a, fault);
      var step := if a.representativeImage.Some? then 1 else 0;

      // StoringAccountHook, save, syncs, images
      if !thrown {
        nextId := nextId + 1;
        var stored;
        thrown, stored := SaveSyncAttach(id, row, a, infoIds, actionIds, step, fault);
        ElementsConcat(pathsToDeleteWhenFail, stored);
        pathsToDeleteWhenFail := pathsToDeleteWhenFail + stored;
        assert [] + a.images == a.images;
      }

      // DB::commit()
      if !thrown {
        thrown := fault == Some(step + 3 + 2 * |a.images|);
      }
    }

    method Update(id: nat, a: AccountInput, catalog: Catalog, user: User, validates: Validator, fault: Option<nat>)
      returns (r: Response)
      requires Valid()
      requires id in accounts && accounts[id].accountTypeId in catalog.types
      requires UploadPaths(a) !! storage
      modifies this`accounts, this`storage
      ensures Valid()
      ensures var account := old(accounts)[id];
        var t := catalog.types[account.accountTypeId];
        // the guards, in order; each leaves rows and files as they were
        (!a.infosIsArray ==>
          r == Uncaught && accounts == old(accounts) && storage == old(storage)) &&
        (a.infosIsArray && !validates(a.accountInfos, InfoRules(t.neededInfos)) ==>
          r == Fail(422, InvalidAccountInfos) && accounts == old(accounts) && storage == old(storage)) &&
        (a.infosIsArray && validates(a.accountInfos, InfoRules(t.neededInfos)) && !a.actionsIsArray ==>
          r == Uncaught && accounts == old(accounts) && storage == old(storage)) &&
        (a.infosIsArray && validates(a.accountInfos, InfoRules(t.neededInfos)) && a.actionsIsArray &&
         !validates(a.accountActions, ActionRules(t.neededActions)) ==>
          r == Fail(422, MissingAccountActions) && accounts == old(accounts) && storage == old(storage)) &&
        // past the guards: the transaction
        (FieldsPass(a, t, validates) ==>
          // a throw at `DB::beginTransaction()` reaches the handler before
          // its list of paths is set, and the handler throws in turn
          (fault == Some(0) ==>
            r == Uncaught && accounts == old(accounts) && storage == old(storage)) &&
          (fault != Some(0) && Throws(fault, 1 + UpdateSteps(a)) ==>
            r == ThrowableReturned && accounts == old(accounts) &&
            // a throw at the commit comes after the replaced image was deleted
            storage == old(storage) - (if fault == Some(UpdateSteps(a)) then ReplacedImage(account, a) else {})) &&
          (!Throws(fault, 1 + UpdateSteps(a)) ==>
            r == Ok &&
            accounts == old(accounts)[id := UpdatedAccount(account, a, t, user)] &&
            storage == (old(storage) + UploadPaths(a)) - ReplacedImage(account, a)))
    {
      // Validate account info and account action
      var accountType := catalog.types[accounts[id].accountTypeId];
      // `Validator::make` of a non-array throws a `TypeError`
      if !a.infosIsArray {
        return Uncaught;
      }
      var infoRules := MakeRuleAccountInfos(accountType.neededInfos);
      if !validates(a.accountInfos, infoRules) {
        return Fail(422, InvalidAccountInfos);
      }
      if !a.actionsIsArray {
        return Uncaught;
      }
      var actionRules := MakeRuleAccountActions(accountType.neededActions);
      if !validates(a.accountActions, actionRules) {
        return Fail(422, MissingAccountActions);
      }

      // Make data to save
      var account := accounts[id];
      var columns := CopyFilledKeys(account.columns, a.input, CopiedKeys);
      account := account.(columns := columns, lastUpdatedEditorId := Some(user.id));

      // DB::beginTransaction(), operation 0, as in `Store`
      if fault == Some(0) {
        return Uncaught;
      }
      var committed := UpdateTransaction(id, account, a, InfoIds(accountType.neededInfos), ActionIds(accountType.neededActions), After(fault));
      r := if committed then Ok else ThrowableReturned;
    }

    /** The transaction of `update` once `DB::beginTransaction()` has
        succeeded, and its handler, numbered as for `store`. The replaced
        representative image is deleted inside the transaction, just before
        the commit. */
    method UpdateTransaction(id: nat, account: Account, a: AccountInput, infoIds: set<nat>, actionIds: set<nat>, fault: Option<nat>)
      returns (committed: bool)
      requires Valid() && id in accounts
      requires UploadPaths(a) !! storage
      modifies this`accounts, this`storage
      ensures Valid()
      ensures committed == !Throws(fault, UpdateSteps(a))
      ensures committed ==>
        accounts == old(accounts)[id := account.(
          representativeImagePath :=
            if a.representativeImage.Some? then a.representativeImage else account.representativeImagePath,
          infos := SyncOf(a.accountInfos, infoIds),
          actions := SyncOf(a.accountActions, actionIds),
          images := account.images + a.images)] &&
        storage == (old(storage) + UploadPaths(a)) - ReplacedImage(account, a)
      ensures !committed ==>
        accounts == old(accounts) &&
        storage == old(storage) - (if fault == Some(UpdateSteps(a) - 1) then ReplacedImage(account, a) else {})
    {
      // the snapshot `DB::beginTransaction()` took
      var snapshot := accounts;
      var thrown, pathsToDeleteWhenFail := UpdateTry(id, account, a, infoIds, actionIds, fault);
      if thrown {
        Rollback(snapshot, pathsToDeleteWhenFail);
        return false;
      }
      committed := true;
    }

    /** The `try` block of `update` up to and including the commit. */
    method UpdateTry(id: nat, account: Account, a: AccountInput, infoIds: set<nat>, actionIds: set<nat>, fault: Option<nat>)
      returns (thrown: bool, pathsToDeleteWhenFail: seq<string>)
      requires Valid() && id in accounts
      modifies this`accounts, this`storage
      ensures Valid()
      ensures thrown == Throws(fault, UpdateSteps(a))
      ensures Elements(pathsToDeleteWhenFail) <= UploadPaths(a)
      ensures storage == old(storage) + Elements(pathsToDeleteWhenFail) -
        (if fault.Some? && fault.value < UpdateSteps(a) - 1 then {} else ReplacedImage(account, a))
      ensures !thrown ==>
        accounts == old(accounts)[id := account.(
          representativeImagePath :=
            if a.representativeImage.Some? then a.representativeImage else account.representativeImagePath,
          infos := SyncOf(a.accountInfos, infoIds),
          actions := SyncOf(a.accountActions, actionIds),
          images := account.images + a.images)] &&
        Elements(pathsToDeleteWhenFail) == UploadPaths(a)
    {
      var row;
      thrown, row, pathsToDeleteWhenFail := StoreRepresentative(account, a, fault);
      var pathsToDeleteWhenSuccess: seq<Option<string>> :=
        if a.representativeImage.Some? then [account.representativeImagePath] else [];
      var step := if a.representativeImage.Some? then 1 else 0;

      // UpdatingAccountHook, save, syncs, images
      if !thrown {
        var stored;
        thrown, stored := SaveSyncAttach(id, row, a, infoIds, actionIds, step, fault);
        ElementsConcat(pathsToDeleteWhenFail, stored);
        pathsToDeleteWhenFail := pathsToDeleteWhenFail + stored;
      }
      step := step + 3 + 2 * |a.images|;
      ghost var beforeDelete := storage;
      assert beforeDelete == old(storage) + Elements(pathsToDeleteWhenFail);

      // When success: `Storage::delete` of the replaced path (of nothing
      // when the account had no representative image)
      if !thrown && pathsToDeleteWhenSuccess != [] {
        thrown := fault == Some(step);
        if !thrown {
          var oldPath := pathsToDeleteWhenSuccess[0];
          if oldPath.Some? {
            storage := storage - {oldPath.value};
          }
        }
        step := step + 1;
      }
      assert storage == beforeDelete -
        (if fault.Some? && fault.value < UpdateSteps(a) - 1 then {} else ReplacedImage(account, a));

      // DB::commit()
      if !thrown {
        thrown := fault == Some(step);
      }
    }

    /** `destroy` refuses at once: accounts are never deleted, and the
        statements after the early `return false` never run. */
    method Destroy(id: nat) returns (r: bool)
      ensures !r
    {
      r := false;
    }
  }
}

=== FILE: account_info_policy.dfy ===
/** Who may change account infos: exactly those who may update the info's
    account type, which in turn is decided by its game. */
module AccountInfoPolicy {
  import opened Authz
  import AccountTypePolicy

  predicate Manage(user: User, info: AccountInfo, canUpdateGame: CanUpdateGame)
  {
    AccountTypePolicy.Update(user, info.accountType, canUpdateGame)
  }

  predicate Create(user: User, accountType: AccountType, canUpdateGame: CanUpdateGame)
  {
    AccountTypePolicy.Update(user, accountType, canUpdateGame)
  }

  predicate Update(user: User, info: AccountInfo, canUpdateGame: CanUpdateGame)
  {
    Manage(user, info, canUpdateGame)
  }

  predicate Delete(user: User, info: AccountInfo, canUpdateGame: CanUpdateGame)
  {
    Manage(user, info, canUpdateGame)
  }

  /** Each ability delegates to updating the account type. */
  lemma Delegates(user: User, info: AccountInfo, accountType: AccountType, canUpdateGame: CanUpdateGame)
    ensures Manage(user, info, canUpdateGame) <==> AccountTypePolicy.Update(user, info.accountType, canUpdateGame)
    ensures Create(user, accountType, canUpdateGame) <==> AccountTypePolicy.Update(user, accountType, canUpdateGame)
    ensures Update(user, info, canUpdateGame) <==> Manage(user, info, canUpdateGame)
    ensures Delete(user, info, canUpdateGame) <==> Manage(user, info, canUpdateGame)
  {
  }

  /** Along the whole chain: a user may update or delete an account info
      exactly when they may update the game owning its account type, and
      may add infos to a type exactly when they may update its game. */
  lemma DecidedByGame(user: User, info: AccountInfo, accountType: AccountType, canUpdateGame: CanUpdateGame)
    ensures Update(user, info, canUpdateGame) <==> canUpdateGame(user, info.accountType.game)
    ensures Delete(user, info, canUpdateGame) <==> canUpdateGame(user, info.accountType.game)
    ensures Create(user, accountType, canUpdateGame) <==> canUpdateGame(user, accountType.game)
  {
    AccountTypePolicy.UpdateIsUpdatingGame(user, info.accountType, canUpdateGame);
    AccountTypePolicy.UpdateIsUpdatingGame(user, accountType, canUpdateGame);
  }
}

=== FILE: account_type_policy.dfy ===
/** Who may see and change account types: anyone may see them, nobody may
    delete them, and changing one (or creating one for a game) is allowed
    to exactly those who may update the game. */
module AccountTypePolicy {
  import opened Authz

  predicate ViewAny(user: User) { true }

  predicate View(user: User, accountType: AccountType) { true }

  predicate Manage(user: User, accountType: AccountType, canUpdateGame: CanUpdateGame)
  {
    canUpdateGame(user, accountType.game)
  }

  predicate Create(user: User, game: Game, canUpdateGame: CanUpdateGame)
  {
    canUpdateGame(user, game)
  }

  predicate Update(user: User, accountType: AccountType, canUpdateGame: CanUpdateGame)
  {
    Manage(user, accountType, canUpdateGame)
  }

  predicate Delete(user: User, accountType: AccountType) { false }

  /** Listing and viewing are open to every user, deleting to none. */
  lemma ViewOpenDeleteClosed(user: User, accountType: AccountType)
    ensures ViewAny(user) && View(user, accountType)
    ensures !Delete(user, accountType)
  {
  }

  /** Managing or updating an account type is updating its game. */
  lemma UpdateIsUpdatingGame(user: User, accountType: AccountType, canUpdateGame: CanUpdateGame)
    ensures Manage(user, accountType, canUpdateGame) <==> canUpdateGame(user, accountType.game)
    ensures Update(user, accountType, canUpdateGame) <==> Manage(user, accountType, canUpdateGame)
  {
  }

  /** Creating an account type for a game is updating the game. */
  lemma CreateIsUpdatingGame(user: User, game: Game, canUpdateGame: CanUpdateGame)
    ensures Create(user, game, canUpdateGame) <==> canUpdateGame(user, game)
  {
  }
}

=== FILE: auth_controller.dfy ===
/** The ability query of the auth controller (`can`): the `params` string is
    split on commas, each piece becomes a gate argument (a model lookup
    `Model:id` or a bare model class name), and the gate decides. */
module AuthController {
  import opened Common

  /** The namespace bare names are resolved in: `App\Models\`. */
  const ModelNamespace: string := "App\\Models\\"

  /** A gate argument: a model class name, or the row `find` returns for a
      key of an existing model class (kept symbolic: which row that is is
      left to the gate). */
  datatype Argument =
    | ClassName(name: string)
    | Lookup(model: string, key: string)

  /** The gate, `auth()->user()->can($ability, $arguments)`. */
  type Gate = (string, seq<Argument>) -> bool

  /** The position of the first `c` in `s`. */
  function FirstIndex(s: string, c: char): (i: nat)
    requires c in s
    ensures i < |s| && s[i] == c && c !in s[..i]
  {
    if s[0] == c then 0 else 1 + FirstIndex(s[1..], c)
  }

  /** PHP's `explode($sep, $s)`: the pieces between the separators, at least
      one, none containing the separator. */
  function Split(s: string, sep: char): (pieces: seq<string>)
    ensures |pieces| >= 1
    ensures sep in s <==> |pieces| >= 2
    ensures forall k :: 0 <= k < |pieces| ==> sep !in pieces[k]
    decreases |s|
  {
    if sep in s then
      var i := FirstIndex(s, sep);
      [s[..i]] + Split(s[i + 1..], sep)
    else [s]
  }

  /** PHP's `implode($sep, $pieces)`. */
  function Join(pieces: seq<string>, sep: char): string
    requires |pieces| >= 1
  {
    if |pieces| == 1 then pieces[0] else pieces[0] + [sep] + Join(pieces[1..], sep)
  }

  /** Splitting loses nothing: joining the pieces gives the string back. */
  lemma {:induction false} JoinSplit(s: string, sep: char)
    ensures Join(Split(s, sep), sep) == s
    decreases |s|
  {
    if sep in s {
      var i := FirstIndex(s, sep);
      var rest := s[i + 1..];
      JoinSplit(rest, sep);
      assert Split(s, sep)[1..] == Split(rest, sep);
      assert s == s[..i] + [sep] + rest;
    }
  }

  /** Splitting a text that starts with a separator-free piece and a
      separator. */
  lemma SplitCons(a: string, sep: char, t: string)
    requires sep !in a
    ensures Split(a + [sep] + t, sep) == [a] + Split(t, sep)
  {
    var s := a + [sep] + t;
    var i := FirstIndex(s, sep);
    assert s[|a|] == sep;
    assert s[..|a|] == a;
    if i != |a| {
      assert false;
    }
    assert s[i + 1..] == t;
  }

  /** Joining pieces free of the separator and splitting again gives the
      same pieces. */
  lemma {:induction false} SplitJoin(pieces: seq<string>, sep: char)
    requires |pieces| >= 1
    requires forall k :: 0 <= k < |pieces| ==> sep !in pieces[k]
    ensures Split(Join(pieces, sep), sep) == pieces
    decreases |pieces|
  {
    if |pieces| > 1 {
      SplitJoin(pieces[1..], sep);
      SplitCons(pieces[0], sep, Join(pieces[1..], sep));
      assert pieces == [pieces[0]] + pieces[1..];
    }
  }

  /** The argument one comma-separated piece stands for. */
  function ParseParam(param: string): Argument
  {
    if ':' in param then
      var query := Split(param, ':');
      Lookup(ModelNamespace + query[0], query[1])
    else ClassName(ModelNamespace + param)
  }

  /** The arguments of a `params` string, one per piece, in order. */
  function Arguments(params: string): (args: seq<Argument>)
  {
    var pieces := Split(params, ',');
    seq(|pieces|, k requires 0 <= k < |pieces| => ParseParam(pieces[k]))
  }

  /** Some `model:key` piece names a class that does not exist, so
      `$model::find` fails while the pieces are being parsed. */
  predicate NamesMissingClass(params: string, classExists: string -> bool)
  {
    var pieces := Split(params, ',');
    exists k :: 0 <= k < |pieces| && ':' in pieces[k] && !classExists(ModelNamespace + Split(pieces[k], ':')[0])
  }

  /** The loop of `can` that turns the pieces into gate arguments; it stops
      with an error at the first lookup in a class that does not exist. */
  method ParseArguments(params: string, classExists: string -> bool) returns (arguments: Option<seq<Argument>>)
    ensures arguments.None? <==> NamesMissingClass(params, classExists)
    ensures arguments.Some? ==>
      |arguments.value| == |Split(params, ',')| &&
      forall k :: 0 <= k < |arguments.value| ==> arguments.value[k] == ParseParam(Split(params, ',')[k])
  {
    var pieces := Split(params, ',');
    var parsed: seq<Argument> := [];
    for k := 0 to |pieces|
      invariant |parsed| == k
      invariant forall j :: 0 <= j < k ==> parsed[j] == ParseParam(pieces[j])
      invariant forall j :: 0 <= j < k && ':' in pieces[j] ==> classExists(ModelNamespace + Split(pieces[j], ':')[0])
    {
      var param := pieces[k];
      if ':' in param {
        var query := Split(param, ':');
        var model := ModelNamespace + query[0];
        if !classExists(model) {
          return None;
        }
        parsed := parsed + [Lookup(model, query[1])];
      } else {
        parsed := parsed + [ClassName(ModelNamespace + param)];
      }
    }
    return Some(parsed);
  }

  /** A piece without `:` names the class of that name in the models
      namespace. */
  lemma ParseBareName(param: string)
    requires ':' !in param
    ensures ParseParam(param) == ClassName(ModelNamespace + param)
  {
  }

  /** A piece `model:key` looks up `key` in the model class `model`, and
      segments after a second `:` are ignored. */
  lemma ParseLookup(model: string, key: string, rest: string)
    requires ':' !in model && ':' !in key
    ensures ParseParam(model + ":" + key) == Lookup(ModelNamespace + model, key)
    ensures ParseParam(model + ":" + key + ":" + rest) == Lookup(ModelNamespace + model, key)
  {
    var p := model + ":" + key;
    assert p == model + [':'] + key;
    assert p[|model|] == ':';
    SplitCons(model, ':', key);
    var q := model + ":" + key + ":" + rest;
    assert q == model + [':'] + (key + [':'] + rest);
    assert q[|model|] == ':';
    SplitCons(model, ':', key + [':'] + rest);
    SplitCons(key, ':', rest);
  }

  /** `params` passes `required|string`: a string that does not trim to
      nothing. */
  predicate ValidParams(params: Option<Json>)
  {
    params.Some? && params.value.JStr? && IsFilledValue(params.value)
  }

  /** `can`: 422 for missing or blank `params`; an uncaught error for a
      lookup in a class that does not exist; then the gate's answer on the
      parsed arguments: a success message or 403. */
  method Can(params: Option<Json>, ability: string, gate: Gate, classExists: string -> bool) returns (r: Response)
    ensures !ValidParams(params) ==> r == Fail(422, InvalidParams)
    ensures ValidParams(params) && NamesMissingClass(params.value.s, classExists) ==> r == Uncaught
    ensures ValidParams(params) && !NamesMissingClass(params.value.s, classExists) ==>
      (r == Ok <==> gate(ability, Arguments(params.value.s))) &&
      (r != Ok ==> r == Fail(403, NotAllowed))
  {
    if !(params.Some? && params.value.JStr? && IsFilledValue(params.value)) {
      return Fail(422, InvalidParams);
    }
    var arguments := ParseArguments(params.value.s, classExists);
    if arguments.None? {
      return Uncaught;
    }
    assert arguments.value == Arguments(params.value.s);
    if gate(ability, arguments.value) {
      return Ok;
    }
    return Fail(403, NotAllowed);
  }
}

=== FILE: authz.dfy ===
/** The entities the policies decide about, reduced to what the policies
    read: a user's permissions, which game an account type belongs to, which
    account type an account info belongs to, and who created a discount
    code. */
module Authz {

  datatype User = User(id: nat, permissions: set<string>)

  datatype Game = Game(id: nat)

  datatype AccountType = AccountType(id: nat, game: Game)

  datatype AccountInfo = AccountInfo(id: nat, accountType: AccountType)

  datatype DiscountCode = DiscountCode(id: nat, creatorId: nat)

  /** `$user->can('update', $game)`: the game policy is not part of this
      model, so its answer is a parameter. */
  type CanUpdateGame = (User, Game) -> bool

  /** `$user->hasPermissionTo($permission)`. */
  predicate HasPermission(user: User, permission: string)
  {
    permission in user.permissions
  }
}

=== FILE: common.dfy ===
/** Values and request helpers shared by the controllers: JSON request values,
    PHP's `trim`, Laravel's `filled` test, `Str::snake`, and the "copy the
    filled request keys" loop that both controllers run. */
module Common {

  datatype Option<+T> = None | Some(value: T)

  /** A decoded JSON request value. */
  datatype Json =
    | JNull
    | JBool(b: bool)
    | JNum(n: int)
    | JStr(s: string)
    | JArr(items: seq<Json>)

  /** Why a handler answered with an error status. */
  datatype Reason =
    | GameNotFound
    | AccountTypeNotFound
    | InvalidAccountInfos
    | MissingAccountActions
    | PublisherNotFound
    | WriteFailed
    | InvalidParams
    | NotAllowed

  /** What a controller action returns. `ThrowableReturned` is the caught
      exception object handed back as the response (`return $th`);
      `Uncaught` is an exception that escapes the action. */
  datatype Response =
    | Ok
    | Fail(status: nat, reason: Reason)
    | ThrowableReturned
    | Uncaught

  /** Inside a try block every operation that may throw is numbered in
      execution order, and `fault == Some(k)` makes operation `k` throw. Does
      one of the first `steps` operations throw? */
  predicate Throws(fault: Option<nat>, steps: nat)
  {
    fault.Some? && fault.value < steps
  }

  /** The fault index of a transaction's operations after
      `DB::beginTransaction()`, which is operation 0, numbered from 0 again. */
  function After(fault: Option<nat>): Option<nat>
  {
    if fault.Some? && fault.value > 0 then Some(fault.value - 1) else None
  }

  /** The elements of a sequence, as a set. */
  function Elements<T>(s: seq<T>): set<T>
  {
    set x | x in s
  }

  lemma ElementsSnoc<T>(s: seq<T>, x: T)
    ensures Elements(s + [x]) == Elements(s) + {x}
  {
    assert forall y :: y in s + [x] <==> y in s || y == x;
  }

  lemma ElementsConcat<T>(s: seq<T>, t: seq<T>)
    ensures Elements(s + t) == Elements(s) + Elements(t)
  {
    assert forall y :: y in s + t <==> y in s || y in t;
  }

  // ---------------------------------------------------------------------
  // PHP trim with a character list

  function TrimLeft(s: string, cs: set<char>): string
  {
    if |s| > 0 && s[0] in cs then TrimLeft(s[1..], cs) else s
  }

  function TrimRight(s: string, cs: set<char>): string
  {
    if |s| > 0 && s[|s| - 1] in cs then TrimRight(s[..|s| - 1], cs) else s
  }

  /** The left trim drops a run of characters of `cs` and keeps the rest. */
  lemma {:induction false} TrimLeftFacts(s: string, cs: set<char>)
    ensures var r := TrimLeft(s, cs);
      |r| <= |s| && r == s[|s| - |r|..] &&
      (r == [] || r[0] !in cs) &&
      forall i :: 0 <= i < |s| - |r| ==> s[i] in cs
  {
    if |s| > 0 && s[0] in cs {
      TrimLeftFacts(s[1..], cs);
    }
  }

  /** The right trim drops a run of characters of `cs` and keeps the rest. */
  lemma {:induction false} TrimRightFacts(s: string, cs: set<char>)
    ensures var r := TrimRight(s, cs);
      |r| <= |s| && r == s[..|r|] &&
      (r == [] || r[|r| - 1] !in cs) &&
      forall i :: |r| <= i < |s| ==> s[i] in cs
  {
    if |s| > 0 && s[|s| - 1] in cs {
      TrimRightFacts(s[..|s| - 1], cs);
    }
  }

  /** `trim($s, $chars)`: strip characters of `cs` from both ends. */
  function Trim(s: string, cs: set<char>): string
  {
    TrimRight(TrimLeft(s, cs), cs)
  }

  /** The characters PHP's `trim` strips when no list is given. */
  const PhpWhitespace: set<char> := {' ', '\t', '\n', '\r', '\0', '\U{B}'}

  // ---------------------------------------------------------------------
  // Laravel request helpers

  /** Laravel's "is empty string" test behind `$request->filled($key)`:
      null and strings that trim to nothing are empty; booleans, numbers
      and arrays never are. */
  predicate IsFilledValue(v: Json)
  {
    match v
    case JNull => false
    case JStr(s) => Trim(s, PhpWhitespace) != ""
    case _ => true
  }

  predicate Filled(input: map<string, Json>, key: string)
  {
    key in input && IsFilledValue(input[key])
  }

  predicate IsUpper(c: char) { 'A' <= c <= 'Z' }

  function Lower(c: char): char
  {
    if IsUpper(c) then (c as int + 32) as char else c
  }

  /** A character after the first: an upper-case letter becomes `_` and its
      lower case. */
  function SnakeChar(c: char): string
  {
    if IsUpper(c) then ['_', Lower(c)] else [c]
  }

  function SnakeRest(s: string): string
  {
    if s == [] then [] else SnakeChar(s[0]) + SnakeRest(s[1..])
  }

  /** `Str::snake` on a key without whitespace: lower-case the first
      character and put `_` before every later upper-case letter. */
  function Snake(s: string): string
  {
    if s == [] then [] else [Lower(s[0])] + SnakeRest(s[1..])
  }

  /** A key without upper-case letters is its own snake-case column. */
  lemma {:induction false} SnakeOfLowerCase(s: string)
    requires forall i :: 0 <= i < |s| ==> !IsUpper(s[i])
    ensures Snake(s) == s
  {
    if s != [] {
      SnakeRestOfLowerCase(s[1..]);
    }
  }

  lemma {:induction false} SnakeRestOfLowerCase(s: string)
    requires forall i :: 0 <= i < |s| ==> !IsUpper(s[i])
    ensures SnakeRest(s) == s
  {
    if s != [] {
      SnakeRestOfLowerCase(s[1..]);
    }
  }

  /** A camel-case word with one hump: `_` and the lower-cased letter
      replace the upper-case one. */
  lemma {:induction false} SnakeRestCamel(a: string, c: char, b: string)
    requires forall i :: 0 <= i < |a| ==> !IsUpper(a[i])
    requires forall i :: 0 <= i < |b| ==> !IsUpper(b[i])
    requires IsUpper(c)
    ensures SnakeRest(a + [c] + b) == a + ['_', Lower(c)] + b
  {
    var cb := [c] + b;
    assert a + [c] + b == a + cb;
    assert cb[1..] == b;
    SnakeRestAppend(a, cb);
    SnakeRestOfLowerCase(a);
    SnakeRestOfLowerCase(b);
  }

  /** The same for a whole key whose first character is not upper case. */
  lemma SnakeCamel(h: char, a: string, c: char, b: string)
    requires !IsUpper(h)
    requires forall i :: 0 <= i < |a| ==> !IsUpper(a[i])
    requires forall i :: 0 <= i < |b| ==> !IsUpper(b[i])
    requires IsUpper(c)
    ensures Snake([h] + a + [c] + b) == [h] + a + ['_', Lower(c)] + b
  {
    var k := [h] + a + [c] + b;
    assert k[1..] == a + [c] + b;
    SnakeRestCamel(a, c, b);
  }

  lemma {:induction false} SnakeRestAppend(s: string, t: string)
    ensures SnakeRest(s + t) == SnakeRest(s) + SnakeRest(t)
  {
    if s != [] {
      var st := s + t;
      assert st[0] == s[0];
      assert st[1..] == s[1..] + t;
      SnakeRestAppend(s[1..], t);
      assert SnakeRest(st) == SnakeChar(s[0]) + (SnakeRest(s[1..]) + SnakeRest(t));
    } else {
      assert s + t == t;
    }
  }

  /** Every key of `keys` goes to a different column. */
  predicate DistinctColumns(keys: seq<string>)
  {
    forall i, j :: 0 <= i < j < |keys| ==> Snake(keys[i]) != Snake(keys[j])
  }

  lemma DistinctColumnsOfThree(k0: string, k1: string, k2: string)
    requires Snake(k0) != Snake(k1) && Snake(k0) != Snake(k2) && Snake(k1) != Snake(k2)
    ensures DistinctColumns([k0, k1, k2])
  {
  }

  /** The attributes after the loop
      `foreach ($keys as $key) if ($request->filled($key)) $data[Str::snake($key)] = $request->$key;`
      has run over `keys`, starting from `data`. */
  function CopyFilled(data: map<string, Json>, input: map<string, Json>, keys: seq<string>): map<string, Json>
  {
    if keys == [] then data
    else
      var before := CopyFilled(data, input, keys[..|keys| - 1]);
      var key := keys[|keys| - 1];
      if Filled(input, key) then before[Snake(key) := input[key]] else before
  }

  /** The copy loop, as the controllers run it. */
  method CopyFilledKeys(data: map<string, Json>, input: map<string, Json>, keys: seq<string>)
    returns (r: map<string, Json>)
    ensures r == CopyFilled(data, input, keys)
  {
    r := data;
    for i := 0 to |keys|
      invariant r == CopyFilled(data, input, keys[..i])
    {
      assert keys[..i + 1][..i] == keys[..i];
      if Filled(input, keys[i]) {
        r := r[Snake(keys[i]) := input[keys[i]]];
      }
    }
    assert keys[..|keys|] == keys;
  }

  /** A filled key's value lands under its snake-case column. */
  lemma {:induction false} CopyFilledFilled(data: map<string, Json>, input: map<string, Json>, keys: seq<string>, i: nat)
    requires DistinctColumns(keys)
    requires i < |keys| && Filled(input, keys[i])
    ensures Snake(keys[i]) in CopyFilled(data, input, keys)
    ensures CopyFilled(data, input, keys)[Snake(keys[i])] == input[keys[i]]
  {
    var init := keys[..|keys| - 1];
    if i < |keys| - 1 {
      assert init[i] == keys[i];
      assert Snake(keys[i]) != Snake(keys[|keys| - 1]);
      CopyFilledFilled(data, input, init, i);
    }
  }

  /** A column that no filled key maps to keeps its value, or stays absent. */
  lemma {:induction false} CopyFilledKeeps(data: map<string, Json>, input: map<string, Json>, keys: seq<string>, column: string)
    requires forall i :: 0 <= i < |keys| && Snake(keys[i]) == column ==> !Filled(input, keys[i])
    ensures column in CopyFilled(data, input, keys) <==> column in data
    ensures column in data ==> CopyFilled(data, input, keys)[column] == data[column]
  {
    if keys != [] {
      var init := keys[..|keys| - 1];
      assert forall i :: 0 <= i < |init| ==> init[i] == keys[i];
      CopyFilledKeeps(data, input, init, column);
    }
  }
}

=== FILE: discount_code_policy.dfy ===
/** Who may manage, create and update discount codes: permission checks,
    and for an update also ownership or the manage permission. */
module DiscountCodePolicy {
  import opened Authz

  const ManagePermission: string := "manage_discount_code"
  const CreatePermission: string := "create_discount_code"
  const UpdatePermission: string := "update_discount_code"

  predicate Manage(user: User)
  {
    HasPermission(user, ManagePermission)
  }

  predicate Create(user: User)
  {
    HasPermission(user, CreatePermission)
  }

  /** `$discountCode->creator->is($user)`: the same user row. */
  predicate IsCreator(user: User, code: DiscountCode)
  {
    code.creatorId == user.id
  }

  predicate Update(user: User, code: DiscountCode)
  {
    HasPermission(user, UpdatePermission) && (IsCreator(user, code) || Manage(user))
  }

  lemma ManageAndCreateArePermissions(user: User)
    ensures Manage(user) <==> ManagePermission in user.permissions
    ensures Create(user) <==> CreatePermission in user.permissions
  {
  }

  /** Without the update permission nobody may update a code, not even its
      creator or a manager. */
  lemma UpdateNeedsPermission(user: User, code: DiscountCode)
    requires UpdatePermission !in user.permissions
    ensures !Update(user, code)
  {
  }

  /** With the update permission, the creator may update the code. */
  lemma CreatorMayUpdate(user: User, code: DiscountCode)
    requires UpdatePermission in user.permissions && code.creatorId == user.id
    ensures Update(user, code)
  {
  }

  /** With the update permission, a manager may update codes created by
      others. */
  lemma ManagerMayUpdate(user: User, code: DiscountCode)
    requires UpdatePermission in user.permissions && ManagePermission in user.permissions
    ensures Update(user, code)
  {
  }

  /** With the update permission but neither ownership nor the manage
      permission, an update is denied. */
  lemma OthersMayNotUpdate(user: User, code: DiscountCode)
    requires code.creatorId != user.id && ManagePermission !in user.permissions
    ensures !Update(user, code)
  {
  }
}

=== FILE: field_keys.dfy ===
/** The keys under which the dynamic account-info and account-action fields
    travel. The controller builds validation rules under `"id" . $id` and
    reads a request key back with `(int)trim($key, 'id')`. */
module FieldKeys {
  import opened Common

  /** The configured key prefix (`$this->config['key']`). */
  const KeyPrefix: string := "id"

  /** `trim($key, 'id')` strips the characters of the prefix, not the prefix
      as a word. */
  const PrefixChars: set<char> := {'i', 'd'}

  predicate IsDigit(c: char) { '0' <= c <= '9' }

  predicate AllDigits(s: string)
  {
    forall i :: 0 <= i < |s| ==> IsDigit(s[i])
  }

  function DigitChar(d: nat): (c: char)
    requires d < 10
    ensures IsDigit(c)
  {
    ('0' as int + d) as char
  }

  function DigitValue(c: char): (d: nat)
    requires IsDigit(c)
    ensures d < 10
  {
    c as int - '0' as int
  }

  /** PHP's decimal rendering of a non-negative integer (string concatenation
      of an int). */
  function DecimalString(n: nat): (r: string)
    ensures |r| > 0 && AllDigits(r)
  {
    if n < 10 then [DigitChar(n)] else DecimalString(n / 10) + [DigitChar(n % 10)]
  }

  /** The value of a string of decimal digits; the empty string is 0. */
  function DigitsValue(s: string): nat
    requires AllDigits(s)
  {
    if s == [] then 0 else DigitsValue(s[..|s| - 1]) * 10 + DigitValue(s[|s| - 1])
  }

  /** The longest prefix of `s` made of digits. */
  function LeadingDigits(s: string): (r: string)
    ensures |r| <= |s| && r == s[..|r|] && AllDigits(r)
    ensures |r| < |s| ==> !IsDigit(s[|r|])
  {
    if s != [] && IsDigit(s[0]) then [s[0]] + LeadingDigits(s[1..]) else []
  }

  /** Whitespace PHP skips in front of a numeric string. */
  const NumericWhitespace: set<char> := {' ', '\t', '\n', '\r', '\U{B}', '\U{C}'}

  /** The bounds of PHP's 64-bit `int`, `PHP_INT_MAX` and `PHP_INT_MIN`. */
  const PhpIntMax: int := 0x7FFF_FFFF_FFFF_FFFF
  const PhpIntMin: int := -0x8000_0000_0000_0000

  /** The least magnitude of a decimal integer that PHP's string-to-double
      parse rounds to infinity: 2^1024 - 2^970, halfway between the largest
      double and 2^1024. */
  const DoubleOverflow: int :=
    0xFFFF_FFFF_FFFF_FC00_0000_0000_0000_0000_0000_0000_0000_0000_0000_0000_0000_0000_0000_0000_0000_0000_0000_0000_0000_0000_0000_0000_0000_0000_0000_0000_0000_0000_0000_0000_0000_0000_0000_0000_0000_0000_0000_0000_0000_0000_0000_0000_0000_0000_0000_0000_0000_0000_0000_0000_0000_0000_0000_0000_0000_0000_0000_0000_0000_0000

  /** PHP's `(int)` of the numeric text of `v`: exact within the `int`
      range; cut to the nearest bound while the text still parses as a
      finite double; 0 once it parses as an infinity. */
  function CastValue(v: int): (r: int)
    ensures PhpIntMin <= r <= PhpIntMax
    ensures PhpIntMin <= v <= PhpIntMax ==> r == v
    ensures PhpIntMax < v < DoubleOverflow ==> r == PhpIntMax
    ensures -DoubleOverflow < v < PhpIntMin ==> r == PhpIntMin
    ensures v >= DoubleOverflow || v <= -DoubleOverflow ==> r == 0
  {
    if v >= DoubleOverflow || v <= -DoubleOverflow then 0
    else if v > PhpIntMax then PhpIntMax
    else if v < PhpIntMin then PhpIntMin
    else v
  }

  /** PHP's `(int)` cast of a string, for integer-shaped text: leading
      whitespace, an optional sign, then as many digits as there are; with
      no digits the result is 0, and a value beyond the `int` range is
      handled by `CastValue`. */
  function IntCast(s: string): int
  {
    var t := TrimLeft(s, NumericWhitespace);
    if t != [] && t[0] == '-' then CastValue(-(DigitsValue(LeadingDigits(t[1..])) as int))
    else if t != [] && t[0] == '+' then CastValue(DigitsValue(LeadingDigits(t[1..])))
    else CastValue(DigitsValue(LeadingDigits(t)))
  }

  /** The rule key of the field with id `id`: `"id" . $id`. */
  function EncodeKey(id: nat): string
  {
    KeyPrefix + DecimalString(id)
  }

  /** The id read back from a request key: `(int)trim($key, 'id')`. */
  function DecodeKey(key: string): int
  {
    IntCast(Trim(key, PrefixChars))
  }

  lemma {:induction false} DigitsValueOfDecimal(n: nat)
    ensures DigitsValue(DecimalString(n)) == n
  {
    var s := DecimalString(n);
    if n >= 10 {
      DigitsValueOfDecimal(n / 10);
      assert s[..|s| - 1] == DecimalString(n / 10);
    }
  }

  lemma {:induction false} LeadingDigitsOfDigits(s: string)
    requires AllDigits(s)
    ensures LeadingDigits(s) == s
  {
    if s != [] {
      LeadingDigitsOfDigits(s[1..]);
    }
  }

  lemma {:induction false} LeadingDigitsStop(d: string, t: string)
    requires AllDigits(d)
    requires t == [] || !IsDigit(t[0])
    ensures LeadingDigits(d + t) == d
  {
    if d != [] {
      assert (d + t)[1..] == d[1..] + t;
      LeadingDigitsStop(d[1..], t);
    }
  }

  lemma {:induction false} TrimLeftRun(p: string, rest: string, cs: set<char>)
    requires forall i :: 0 <= i < |p| ==> p[i] in cs
    requires rest == [] || rest[0] !in cs
    ensures TrimLeft(p + rest, cs) == rest
  {
    if p != [] {
      assert (p + rest)[1..] == p[1..] + rest;
      TrimLeftRun(p[1..], rest, cs);
    }
  }

  /** The right trim stops at the last digit. */
  lemma TrimRightAfterDigits(d: string, t: string)
    requires |d| > 0 && AllDigits(d)
    ensures exists k :: 0 <= k <= |t| && TrimRight(d + t, PrefixChars) == d + t[..k]
  {
    var s := d + t;
    var r := TrimRight(s, PrefixChars);
    TrimRightFacts(s, PrefixChars);
    assert s[|d| - 1] == d[|d| - 1];
    assert !(s[|d| - 1] in PrefixChars);
    if |r| < |d| {
      assert false;
    }
    assert r == s[..|r|];
    assert r == d + t[..|r| - |d|];
  }

  /** The cast of digits followed by text that does not start with a digit. */
  lemma IntCastDigitsThen(d: string, t: string)
    requires |d| > 0 && AllDigits(d)
    requires t == [] || !IsDigit(t[0])
    ensures IntCast(d + t) == CastValue(DigitsValue(d))
  {
    var s := d + t;
    assert s[0] == d[0];
    assert !(s[0] in NumericWhitespace);
    assert TrimLeft(s, NumericWhitespace) == s;
    LeadingDigitsStop(d, t);
  }

  /** Text that ends a decimal integer for PHP: it does not go on with a
      digit, an exponent (`e`, `E`) or a decimal point, after which PHP
      reads the text as a float (`"5.e3"` is 5000). */
  predicate EndsInteger(t: string)
  {
    t == [] || (!IsDigit(t[0]) && t[0] != 'e' && t[0] != 'E' && t[0] != '.')
  }

  /** How a request key is read: any run of the characters `i` and `d`,
      then digits, then text that ends the integer, reads as the value of the
      digits as `(int)` casts it: exact up to `PHP_INT_MAX`, then
      `PHP_INT_MAX`, and 0 once the digits overflow a double. */
  lemma DecodeKeyReads(p: string, d: string, t: string)
    requires forall i :: 0 <= i < |p| ==> p[i] in PrefixChars
    requires |d| > 0 && AllDigits(d)
    requires EndsInteger(t)
    ensures DecodeKey(p + d + t) == CastValue(DigitsValue(d))
  {
    assert p + d + t == p + (d + t);
    assert !(d[0] in PrefixChars);
    TrimLeftRun(p, d + t, PrefixChars);
    TrimRightAfterDigits(d, t);
    var k :| 0 <= k <= |t| && TrimRight(d + t, PrefixChars) == d + t[..k];
    IntCastDigitsThen(d, t[..k]);
  }

  /** Decoding an encoded key gives back the id: the controller reads the
      request under the same ids it built the rules for. Every row id is a
      PHP `int`; a larger number reads as `PHP_INT_MAX` while it fits a
      double, and as 0 beyond. */
  lemma DecodeEncodeKey(id: nat)
    ensures id <= PhpIntMax ==> DecodeKey(EncodeKey(id)) == id
    ensures PhpIntMax < id < DoubleOverflow ==> DecodeKey(EncodeKey(id)) == PhpIntMax
    ensures id >= DoubleOverflow ==> DecodeKey(EncodeKey(id)) == 0
  {
    var d := DecimalString(id);
    assert EncodeKey(id) == KeyPrefix + d + [];
    DecodeKeyReads(KeyPrefix, d, []);
    DigitsValueOfDecimal(id);
  }

  /** Distinct ids have distinct keys. */
  lemma EncodeKeyInjective(a: nat, b: nat)
    ensures EncodeKey(a) == EncodeKey(b) <==> a == b
  {
    if EncodeKey(a) == EncodeKey(b) {
      assert DecimalString(a) == EncodeKey(a)[|KeyPrefix|..];
      assert DecimalString(b) == EncodeKey(b)[|KeyPrefix|..];
      DigitsValueOfDecimal(a);
      DigitsValueOfDecimal(b);
    }
  }

  /** Decoding is not injective: a key with the prefix written twice is a
      different key that reads as the same id. */
  lemma DecodeDoubledPrefix(id: nat)
    ensures KeyPrefix + EncodeKey(id) != EncodeKey(id)
    ensures DecodeKey(KeyPrefix + EncodeKey(id)) == DecodeKey(EncodeKey(id))
    ensures id <= PhpIntMax ==> DecodeKey(KeyPrefix + EncodeKey(id)) == id
  {
    var d := DecimalString(id);
    assert KeyPrefix + EncodeKey(id) == (KeyPrefix + KeyPrefix) + d + [];
    DecodeKeyReads(KeyPrefix + KeyPrefix, d, []);
    DigitsValueOfDecimal(id);
    DecodeEncodeKey(id);
  }

  predicate NoDigits(s: string)
  {
    forall i :: 0 <= i < |s| ==> !IsDigit(s[i])
  }

  lemma TrimLeftNoDigits(s: string, cs: set<char>)
    requires NoDigits(s)
    ensures NoDigits(TrimLeft(s, cs))
  {
    var r := TrimLeft(s, cs);
    TrimLeftFacts(s, cs);
    forall i | 0 <= i < |r| ensures !IsDigit(r[i]) {
      assert r[i] == s[|s| - |r| + i];
    }
  }

  lemma TrimRightNoDigits(s: string, cs: set<char>)
    requires NoDigits(s)
    ensures NoDigits(TrimRight(s, cs))
  {
    var r := TrimRight(s, cs);
    TrimRightFacts(s, cs);
    forall i | 0 <= i < |r| ensures !IsDigit(r[i]) {
      assert r[i] == s[i];
    }
  }

  /** A key without any digit reads as id 0. */
  lemma DecodeNoDigits(key: string)
    requires NoDigits(key)
    ensures DecodeKey(key) == 0
  {
    var l := TrimLeft(key, PrefixChars);
    TrimLeftNoDigits(key, PrefixChars);
    var t := TrimRight(l, PrefixChars);
    TrimRightNoDigits(l, PrefixChars);
    var w := TrimLeft(t, NumericWhitespace);
    TrimLeftNoDigits(t, NumericWhitespace);
    assert LeadingDigits(w) == [];
    if w != [] {
      assert w[1..] == [] || !IsDigit(w[1..][0]);
      assert LeadingDigits(w[1..]) == [];
    }
  }
}

=== FILE: game_controller.dfy ===
/** The game controller's `store`, `update` and `destroy` actions over an
    abstract table of game rows (each a map of columns, as `$gameData` is)
    and the file store. `Str::slug` is a parameter; an exception is chosen
    by a fault index, as in the account controller. */
module GameController {
  import opened Common
  import opened FieldKeys

  /** The request keys copied into `$gameData` when they are filled. */
  const GameKeys: seq<string> := ["order", "publisherId", "name"]

  /** `Str::slug`, kept abstract. */
  type Slugger = Json -> string

  /** A game row: its columns by name. */
  type GameRow = map<string, Json>

  /** What `Publisher::find($request->publisherId)` returns: the row with
      that id, null, or (for an array of ids, which Eloquent hands to
      `findMany`) a collection, which is never null. */
  datatype PublisherLookup = Found(id: nat) | NotFound | Collection

  /** The id a scalar `publisherId` is compared with: a number, a string of
      decimal digits, or a boolean, which compares as 1 or 0. */
  function LookupKey(v: Json): Option<int>
  {
    match v
    case JNum(n) => Some(n)
    case JStr(s) => if s != "" && AllDigits(s) then Some(DigitsValue(s)) else None
    case JBool(b) => Some(if b then 1 else 0)
    case _ => None
  }

  /** The publisher `store` finds for the request. */
  function FindPublisher(input: map<string, Json>, publishers: set<nat>): (p: PublisherLookup)
    ensures p.Found? ==> p.id in publishers
  {
    if "publisherId" !in input then NotFound
    else if input["publisherId"].JArr? then Collection
    else
      var key := LookupKey(input["publisherId"]);
      if key.Some? && key.value >= 0 && key.value as nat in publishers then Found(key.value as nat)
      else NotFound
  }

  /** A publisher id sent as a number or as its decimal text finds exactly
      the publisher with that id. */
  lemma FindPublisherById(input: map<string, Json>, publishers: set<nat>, id: nat)
    requires "publisherId" in input
    requires input["publisherId"] == JNum(id) || input["publisherId"] == JStr(DecimalString(id))
    ensures FindPublisher(input, publishers) == if id in publishers then Found(id) else NotFound
  {
    DigitsValueOfDecimal(id);
  }

  /** A value that is neither a number, digit text, a boolean nor an array
      finds nothing; `true` finds the publisher with id 1. */
  lemma FindPublisherOther(input: map<string, Json>, publishers: set<nat>)
    ensures "publisherId" in input && input["publisherId"] == JNull ==> FindPublisher(input, publishers) == NotFound
    ensures "publisherId" in input && input["publisherId"] == JBool(true) ==>
      FindPublisher(input, publishers) == if 1 in publishers then Found(1) else NotFound
    ensures "publisherId" in input && input["publisherId"].JStr? && !AllDigits(input["publisherId"].s) ==>
      FindPublisher(input, publishers) == NotFound
  {
  }

  /** `$gameData` after the copy loop. */
  function GameColumns(input: map<string, Json>): GameRow
  {
    CopyFilled(map[], input, GameKeys)
  }

  /** `$gameData` as `store` builds it before its transaction: the copied
      columns, the slug of the name, the publisher found, and the current
      user as creator and last editor. */
  function StoreColumns(input: map<string, Json>, publisherId: nat, userId: nat, slug: Slugger): GameRow
    requires "name" in GameColumns(input)
  {
    var data := GameColumns(input);
    data["slug" := JStr(slug(data["name"]))]
      ["publisher_id" := JNum(publisherId)]
      ["last_updated_editor_id" := JNum(userId)]
      ["creator_id" := JNum(userId)]
  }

  /** The row `store` creates: `$gameData` with the stored image's path. */
  function NewGameRow(input: map<string, Json>, publisherId: nat, userId: nat, slug: Slugger, imagePath: string): GameRow
    requires "name" in GameColumns(input)
  {
    StoreColumns(input, publisherId, userId, slug)["image_path" := JStr(imagePath)]
  }

  /** The data `update` writes, apart from a new image. */
  function UpdateData(input: map<string, Json>, userId: nat, slug: Slugger): GameRow
  {
    var data := GameColumns(input);
    var data := if "name" in data then data["slug" := JStr(slug(data["name"]))] else data;
    data["last_updated_editor_id" := JNum(userId)]
  }

  /** The image path a game row names, if any. */
  function ImagePath(row: GameRow): Option<string>
  {
    if "image_path" in row && row["image_path"].JStr? then Some(row["image_path"].s) else None
  }

  /** The row after `$game->update(...)`: the written columns replace the
      old ones, the others are kept. */
  function UpdatedGameRow(row: GameRow, input: map<string, Json>, userId: nat, slug: Slugger, image: Option<string>): GameRow
  {
    var data := UpdateData(input, userId, slug);
    var data := if image.Some? then data["image_path" := JStr(image.value)] else data;
    row + data
  }

  /** The file `update` deletes as replaced. */
  function ReplacedGameImage(row: GameRow, image: Option<string>): set<string>
  {
    if image.Some? && ImagePath(row).Some? then {ImagePath(row).value} else {}
  }

  function OptionPaths(p: Option<string>): set<string>
  {
    if p.Some? then {p.value} else {}
  }

  /** The copied keys' columns: `order`, `publisher_id` and `name`, all
      different. */
  lemma GameKeysColumns()
    ensures Snake(GameKeys[0]) == "order"
    ensures Snake(GameKeys[1]) == "publisher_id"
    ensures Snake(GameKeys[2]) == "name"
    ensures DistinctColumns(GameKeys)
  {
    SnakeOfLowerCase(GameKeys[0]);
    SnakeOfLowerCase(GameKeys[2]);
    SnakePublisherId();
    DistinctColumnsOfThree(GameKeys[0], GameKeys[1], GameKeys[2]);
  }

  lemma SnakePublisherId()
    ensures Snake("publisherId") == "publisher_id"
  {
    var a, b := "ublisher", "d";
    assert "publisherId" == ['p'] + a + ['I'] + b;
    SnakeCamel('p', a, 'I', b);
    assert ['p'] + a + ['_', Lower('I')] + b == "publisher_id";
  }

  /** Only filled keys are copied, each under its snake-case column:
      `order`, `publisher_id` (from `publisherId`) and `name`. */
  lemma GameColumnsCopyFilled(input: map<string, Json>, column: string)
    ensures column in GameColumns(input) <==>
      (column == "order" && Filled(input, "order")) ||
      (column == "publisher_id" && Filled(input, "publisherId")) ||
      (column == "name" && Filled(input, "name"))
    ensures column == "order" && Filled(input, "order") ==> GameColumns(input)[column] == input["order"]
    ensures column == "publisher_id" && Filled(input, "publisherId") ==> GameColumns(input)[column] == input["publisherId"]
    ensures column == "name" && Filled(input, "name") ==> GameColumns(input)[column] == input["name"]
  {
    GameKeysColumns();
    if exists i :: 0 <= i < |GameKeys| && Snake(GameKeys[i]) == column && Filled(input, GameKeys[i]) {
      var i :| 0 <= i < |GameKeys| && Snake(GameKeys[i]) == column && Filled(input, GameKeys[i]);
      CopyFilledFilled(map[], input, GameKeys, i);
    } else {
      CopyFilledKeeps(map[], input, GameKeys, column);
    }
  }

  /** The row `store` creates holds the slug of the name, the publisher that
      was found (whatever the request's `publisherId` column said), the
      current user as creator and as last editor, and the image. */
  lemma NewGameRowFacts(input: map<string, Json>, publisherId: nat, userId: nat, slug: Slugger, imagePath: string)
    requires "name" in GameColumns(input)
    ensures var row := NewGameRow(input, publisherId, userId, slug, imagePath);
      Filled(input, "name") &&
      row["name"] == input["name"] &&
      row["slug"] == JStr(slug(input["name"])) &&
      row["publisher_id"] == JNum(publisherId) &&
      row["creator_id"] == JNum(userId) && row["last_updated_editor_id"] == JNum(userId) &&
      row["image_path"] == JStr(imagePath) &&
      ("order" in row <==> Filled(input, "order")) &&
      ("order" in row ==> row["order"] == input["order"])
  {
    GameColumnsCopyFilled(input, "name");
    GameColumnsCopyFilled(input, "order");
  }

  /** `store` can only build its data when the name is filled. */
  lemma StoreNeedsName(input: map<string, Json>)
    ensures "name" in GameColumns(input) <==> Filled(input, "name")
  {
    GameColumnsCopyFilled(input, "name");
  }

  /** `update` writes a slug exactly when a name was supplied, always names
      the current user as last editor, and never writes the creator. */
  lemma UpdateDataFacts(input: map<string, Json>, userId: nat, slug: Slugger)
    ensures var data := UpdateData(input, userId, slug);
      ("slug" in data <==> Filled(input, "name")) &&
      (Filled(input, "name") ==> data["slug"] == JStr(slug(input["name"]))) &&
      data["last_updated_editor_id"] == JNum(userId) &&
      "creator_id" !in data && "image_path" !in data &&
      ("name" in data <==> Filled(input, "name")) &&
      ("publisher_id" in data <==> Filled(input, "publisherId"))
  {
    GameColumnsCopyFilled(input, "name");
    GameColumnsCopyFilled(input, "slug");
    GameColumnsCopyFilled(input, "creator_id");
    GameColumnsCopyFilled(input, "image_path");
    GameColumnsCopyFilled(input, "publisher_id");
  }

  /** An update keeps every column other than the copied ones, the slug,
      the editor and the image; in particular the creator. */
  lemma UpdatedGameRowKeeps(row: GameRow, input: map<string, Json>, userId: nat, slug: Slugger, image: Option<string>, column: string)
    requires column !in {"order", "publisher_id", "name", "slug", "last_updated_editor_id", "image_path"}
    ensures var u := UpdatedGameRow(row, input, userId, slug, image);
      (column in u <==> column in row) && (column in row ==> u[column] == row[column])
  {
    GameColumnsCopyFilled(input, column);
  }

  /** The image column after an update names the new image when one was
      uploaded, and the old one otherwise. */
  lemma UpdatedGameRowImage(row: GameRow, input: map<string, Json>, userId: nat, slug: Slugger, image: Option<string>)
    ensures var u := UpdatedGameRow(row, input, userId, slug, image);
      ImagePath(u) == if image.Some? then image else ImagePath(row)
  {
    UpdateDataFacts(input, userId, slug);
  }

  /** Builds `$gameData` for `store`; without a filled name, reading
      `$gameData['name']` throws outside any handler. */
  method StoreData(input: map<string, Json>, publisherId: nat, userId: nat, slug: Slugger)
    returns (gameData: Option<GameRow>)
    ensures gameData.Some? <==> "name" in GameColumns(input)
    ensures gameData.Some? ==> gameData.value == StoreColumns(input, publisherId, userId, slug)
  {
    var data := CopyFilledKeys(map[], input, GameKeys);
    if "name" !in data {
      return None;
    }
    data := data["slug" := JStr(slug(data["name"]))];
    data := data["publisher_id" := JNum(publisherId)];
    data := data["last_updated_editor_id" := JNum(userId)];
    data := data["creator_id" := JNum(userId)];
    return Some(data);
  }

  /** The game rows and the stored files. */
  class GameStore {
    var games: map<nat, GameRow>
    var storage: set<string>
    var nextId: nat

    ghost predicate Valid()
      reads this
    {
      forall id :: id in games ==> id < nextId
    }

    constructor ()
      ensures Valid() && games == map[] && storage == {}
    {
      games := map[];
      storage := {};
      nextId := 1;
    }

    /** `store` as written: its handler returns the exception before the
        rollback and the image deletion, so neither runs. The transaction
        left open is discarded with the connection, but a stored image stays
        in the file store. Operations that may throw: `DB::beginTransaction()`,
        storing the image (a request without one throws there too), creating
        the row, the commit. */
    method Store(input: map<string, Json>, publishers: set<nat>, userId: nat, slug: Slugger,
                 image: Option<string>, fault: Option<nat>)
      returns (r: Response)
      requires Valid()
      requires image.Some? ==> image.value !in storage
      modifies this
      ensures Valid()
      ensures FindPublisher(input, publishers).NotFound? ==>
        r == Fail(404, PublisherNotFound) && games == old(games) && storage == old(storage)
      // a missing name, or `$publisher->id` on a collection, throws outside the `try`
      ensures (!FindPublisher(input, publishers).NotFound? &&
               ("name" !in GameColumns(input) || FindPublisher(input, publishers).Collection?)) ==>
        r == Uncaught && games == old(games) && storage == old(storage)
      ensures FindPublisher(input, publishers).Found? && "name" in GameColumns(input) ==>
        (image.None? || Throws(fault, 4) ==>
          r == ThrowableReturned && games == old(games) &&
          // the stored image is never deleted
          storage == old(storage) + (if Throws(fault, 2) then {} else OptionPaths(image))) &&
        (image.Some? && !Throws(fault, 4) ==>
          r == Ok &&
          games == old(games)[old(nextId) := NewGameRow(input, FindPublisher(input, publishers).id, userId, slug, image.value)] &&
          storage == old(storage) + {image.value})
    {
      var publisher := FindPublisher(input, publishers);
      if publisher.NotFound? {
        return Fail(404, PublisherNotFound);
      }
      // `$gameData['name']` (line 52) fails before `$publisher->id` (line 53);
      // both throw outside the `try`
      if publisher.Collection? {
        return Uncaught;
      }
      var gameData := StoreData(input, publisher.id, userId, slug);
      if gameData.None? {
        return Uncaught;
      }

      // DB::beginTransaction(), then storing the image
      if image.None? || Throws(fault, 2) {
        return ThrowableReturned;
      }
      storage := storage + {image.value};
      var data := gameData.value["image_path" := JStr(image.value)];
      if fault == Some(2) {
        return ThrowableReturned;
      }
      var snapshot := games;
      games := games[nextId := data];
      nextId := nextId + 1;
      if fault == Some(3) {
        // the open transaction is never rolled back here; it is discarded
        // when the connection closes
        games := snapshot;
        return ThrowableReturned;
      }
      r := Ok;
    }

    /** `store` as its handler is evidently meant to run: roll back, delete
        the stored image and answer 500. The deletion is taken as
        `Storage::delete($imagePath ?? null)`, as `update` writes it, so that
        a throw before the image is stored also reaches the 500. */
    method StoreWithCleanup(input: map<string, Json>, publishers: set<nat>, userId: nat, slug: Slugger,
                            image: Option<string>, fault: Option<nat>)
      returns (r: Response)
      requires Valid()
      requires image.Some? ==> image.value !in storage
      modifies this
      ensures Valid()
      ensures FindPublisher(input, publishers).NotFound? ==>
        r == Fail(404, PublisherNotFound) && games == old(games) && storage == old(storage)
      // a missing name, or `$publisher->id` on a collection, throws outside the `try`
      ensures (!FindPublisher(input, publishers).NotFound? &&
               ("name" !in GameColumns(input) || FindPublisher(input, publishers).Collection?)) ==>
        r == Uncaught && games == old(games) && storage == old(storage)
      ensures FindPublisher(input, publishers).Found? && "name" in GameColumns(input) ==>
        (image.None? || Throws(fault, 4) ==>
          r == Fail(500, WriteFailed) && games == old(games) && storage == old(storage)) &&
        (image.Some? && !Throws(fault, 4) ==>
          r == Ok &&
          games == old(games)[old(nextId) := NewGameRow(input, FindPublisher(input, publishers).id, userId, slug, image.value)] &&
          storage == old(storage) + {image.value})
    {
      var publisher := FindPublisher(input, publishers);
      if publisher.NotFound? {
        return Fail(404, PublisherNotFound);
      }
      // `$gameData['name']` (line 52) fails before `$publisher->id` (line 53);
      // both throw outside the `try`
      if publisher.Collection? {
        return Uncaught;
      }
      var gameData := StoreData(input, publisher.id, userId, slug);
      if gameData.None? {
        return Uncaught;
      }

      // DB::beginTransaction(), operation 0
      var snapshot := games;
      var stored: seq<string> := [];
      var thrown := fault == Some(0) || image.None? || fault == Some(1);
      if !thrown {
        storage := storage + {image.value};
        stored := [image.value];
        thrown := fault == Some(2);
      }
      if !thrown {
        games := games[nextId := gameData.value["image_path" := JStr(image.value)]];
        nextId := nextId + 1;
        thrown := fault == Some(3);
      }
      if thrown {
        // DB::rollback(), then `Storage::delete($imagePath)`
        games := snapshot;
        storage := storage - Elements(stored);
        return Fail(500, WriteFailed);
      }
      r := Ok;
    }

    /** `update`. Operations that may throw: `DB::beginTransaction()`,
        storing a new image, the row update, the commit and, after the
        commit, deleting the replaced image. The handler rolls back (nothing, once committed), deletes
        the new image and answers 500. */
    method Update(id: nat, input: map<string, Json>, userId: nat, slug: Slugger,
                  image: Option<string>, fault: Option<nat>)
      returns (r: Response)
      requires Valid() && id in games
      requires image.Some? ==> image.value !in storage
      modifies this`games, this`storage
      ensures Valid()
      ensures var row := old(games)[id];
        var steps := (if image.Some? then 1 else 0) + 4;
        var updated := old(games)[id := UpdatedGameRow(row, input, userId, slug, image)];
        // a throw before the commit has completed
        (Throws(fault, steps - 1) ==>
          r == Fail(500, WriteFailed) && games == old(games) && storage == old(storage)) &&
        // a throw deleting the replaced image, after the commit: the new
        // image is deleted although the committed row names it
        (fault == Some(steps - 1) ==>
          r == Fail(500, WriteFailed) && games == updated && storage == old(storage)) &&
        (!Throws(fault, steps) ==>
          r == Ok && games == updated &&
          storage == (old(storage) + OptionPaths(image)) - ReplacedGameImage(row, image))
    {
      // Initialize data
      var gameData := CopyFilledKeys(map[], input, GameKeys);
      if "name" in gameData {
        gameData := gameData["slug" := JStr(slug(gameData["name"]))];
      }
      gameData := gameData["last_updated_editor_id" := JNum(userId)];
      assert gameData == UpdateData(input, userId, slug);

      // DB::beginTransaction(), operation 0
      var snapshot := games;
      var imagePath: Option<string> := None;
      var mustDeleteWhenSuccess: Option<string> := None;
      var thrown := fault == Some(0);
      var step := 1;
      if image.Some? {
        if !thrown {
          thrown := fault == Some(1);
        }
        if !thrown {
          storage := storage + {image.value};
          imagePath := image;
          gameData := gameData["image_path" := JStr(image.value)];
          mustDeleteWhenSuccess := ImagePath(games[id]);
        }
        step := 2;
      }
      if !thrown {
        thrown := fault == Some(step);
        if !thrown {
          games := games[id := games[id] + gameData];
        }
      }
      if !thrown {
        thrown := fault == Some(step + 1);
      }
      if !thrown {
        // committed; `Storage::delete($imagePathMustDeleteWhenSuccess ?? null)`
        thrown := fault == Some(step + 2);
        if !thrown && mustDeleteWhenSuccess.Some? {
          storage := storage - {mustDeleteWhenSuccess.value};
        }
      }
      if thrown {
        if fault != Some(step + 2) {
          games := snapshot;
        }
        storage := storage - OptionPaths(imagePath);
        return Fail(500, WriteFailed);
      }
      r := Ok;
    }

    /** `destroy`. Operations that may throw: `DB::beginTransaction()`, the
        row deletion, the commit and, after the commit, deleting the game's
        image. */
    method Destroy(id: nat, fault: Option<nat>) returns (r: Response)
      requires Valid() && id in games
      modifies this`games, this`storage
      ensures Valid()
      ensures Throws(fault, 3) ==>
        r == Fail(500, WriteFailed) && games == old(games) && storage == old(storage)
      ensures fault == Some(3) ==>
        r == Fail(500, WriteFailed) && games == old(games) - {id} && storage == old(storage)
      ensures !Throws(fault, 4) ==>
        r == Ok && games == old(games) - {id} && storage == old(storage) - OptionPaths(ImagePath(old(games)[id]))
    {
      // DB::beginTransaction(), operation 0
      var snapshot := games;
      var imagePath := ImagePath(games[id]);
      // operation 0, then the row deletion
      var thrown := Throws(fault, 2);
      if !thrown {
        games := games - {id};
        // DB::commit()
        thrown := fault == Some(2);
      }
      if thrown {
        games := snapshot;
        return Fail(500, WriteFailed);
      }
      // committed; `Storage::delete($imagePath)`
      if fault == Some(3) {
        return Fail(500, WriteFailed);
      }
      storage := storage - OptionPaths(imagePath);
      r := Ok;
    }
  }
}

=== FILE: rule_maps.dfy ===
/** The validation rule maps built for the dynamic fields of an account type
    (`makeRuleAccountInfos` and `makeRuleAccountActions`). */
module RuleMaps {
  import opened FieldKeys

  /** A validation rule as handed to the validator. `Given` is a rule text
      produced by an account info's stored rule; the other two are the
      rules an account action gets. */
  datatype Rule =
    | Given(text: string)
    | RequiredTrue     // `'required|' . Rule::in(true)`
    | NullableBoolean  // `'nullable|boolean'`

  /** What an account info's stored rule makes: one rule, or (for an
      array-valued info) a rule for the array and one for each element. */
  datatype InfoRule =
    | Scalar(rule: Rule)
    | ArrayShaped(parent: Rule, children: Rule)

  datatype AccountInfo = AccountInfo(id: nat, rule: InfoRule)

  datatype AccountAction = AccountAction(id: nat, required: bool)

  /** The key of the per-element rule of an array-valued info. */
  function ElementsKey(id: nat): string
  {
    EncodeKey(id) + ".*"
  }

  /** The rule map after the loop of `makeRuleAccountInfos` has run over
      `infos` (later entries overwrite earlier ones under the same key). */
  function InfoRules(infos: seq<AccountInfo>): map<string, Rule>
  {
    if infos == [] then map[]
    else
      var m := InfoRules(infos[..|infos| - 1]);
      var info := infos[|infos| - 1];
      match info.rule
      case Scalar(r) => m[EncodeKey(info.id) := r]
      case ArrayShaped(p, c) => m[EncodeKey(info.id) := p][ElementsKey(info.id) := c]
  }

  /** The rule map after the loop of `makeRuleAccountActions` has run over
      `actions`. */
  function ActionRules(actions: seq<AccountAction>): map<string, Rule>
  {
    if actions == [] then map[]
    else
      var m := ActionRules(actions[..|actions| - 1]);
      var action := actions[|actions| - 1];
      m[EncodeKey(action.id) := if action.required then RequiredTrue else NullableBoolean]
  }

  method MakeRuleAccountInfos(infos: seq<AccountInfo>) returns (rules: map<string, Rule>)
    ensures rules == InfoRules(infos)
  {
    rules := map[];
    for i := 0 to |infos|
      invariant rules == InfoRules(infos[..i])
    {
      assert infos[..i + 1][..i] == infos[..i];
      var info := infos[i];
      match info.rule {
        case ArrayShaped(parent, children) =>
          rules := rules[KeyPrefix + DecimalString(info.id) := parent];
          rules := rules[KeyPrefix + DecimalString(info.id) + ".*" := children];
        case Scalar(rule) =>
          rules := rules[KeyPrefix + DecimalString(info.id) := rule];
      }
    }
    assert infos[..|infos|] == infos;
  }

  method MakeRuleAccountActions(actions: seq<AccountAction>) returns (rules: map<string, Rule>)
    ensures rules == ActionRules(actions)
  {
    rules := map[];
    for i := 0 to |actions|
      invariant rules == ActionRules(actions[..i])
    {
      assert actions[..i + 1][..i] == actions[..i];
      var action := actions[i];
      var rule := if action.required then RequiredTrue else NullableBoolean;
      rules := rules[KeyPrefix + DecimalString(action.id) := rule];
    }
    assert actions[..|actions|] == actions;
  }

  /** An element key never equals a field key: it ends in `*`, a field key
      in a digit. */
  lemma ElementsKeyIsNotFieldKey(a: nat, b: nat)
    ensures ElementsKey(a) != EncodeKey(b)
  {
    var e := ElementsKey(a);
    var k := EncodeKey(b);
    assert e[|e| - 1] == '*';
    assert k[|k| - 1] == DecimalString(b)[|DecimalString(b)| - 1];
  }

  lemma ElementsKeyInjective(a: nat, b: nat)
    ensures ElementsKey(a) == ElementsKey(b) <==> a == b
  {
    if ElementsKey(a) == ElementsKey(b) {
      var e := ElementsKey(a);
      assert EncodeKey(a) == e[..|e| - 2] == EncodeKey(b);
      EncodeKeyInjective(a, b);
    }
  }

  /** The info rule map has a key for every info and an element key for every
      array-valued info, and no other key. */
  lemma {:induction false} InfoRulesKeys(infos: seq<AccountInfo>, key: string)
    ensures key in InfoRules(infos) <==>
      exists i :: 0 <= i < |infos| &&
        (key == EncodeKey(infos[i].id) || (infos[i].rule.ArrayShaped? && key == ElementsKey(infos[i].id)))
  {
    if infos != [] {
      var init := infos[..|infos| - 1];
      InfoRulesKeys(init, key);
      assert forall i :: 0 <= i < |init| ==> init[i] == infos[i];
    }
  }

  /** The rule stored for an info that no later info shares an id with: its
      rule under `"id" . id`, or its parent rule there and its element rule
      under `"id" . id . ".*"`. */
  lemma {:induction false} InfoRulesValue(infos: seq<AccountInfo>, i: nat)
    requires i < |infos|
    requires forall j :: i < j < |infos| ==> infos[j].id != infos[i].id
    ensures var m, info := InfoRules(infos), infos[i];
      EncodeKey(info.id) in m &&
      match info.rule
      case Scalar(r) => m[EncodeKey(info.id)] == r
      case ArrayShaped(p, c) => m[EncodeKey(info.id)] == p && ElementsKey(info.id) in m && m[ElementsKey(info.id)] == c
  {
    var init := infos[..|infos| - 1];
    var last := infos[|infos| - 1];
    var id := infos[i].id;
    if i < |infos| - 1 {
      InfoRulesValue(init, i);
      assert init[i] == infos[i];
      EncodeKeyInjective(last.id, id);
      ElementsKeyInjective(last.id, id);
      ElementsKeyIsNotFieldKey(last.id, id);
      ElementsKeyIsNotFieldKey(id, last.id);
    } else {
      ElementsKeyIsNotFieldKey(id, id);
    }
  }

  /** The action rule map has exactly one key per action id. */
  lemma {:induction false} ActionRulesKeys(actions: seq<AccountAction>, key: string)
    ensures key in ActionRules(actions) <==> exists i :: 0 <= i < |actions| && key == EncodeKey(actions[i].id)
  {
    if actions != [] {
      var init := actions[..|actions| - 1];
      ActionRulesKeys(init, key);
      assert forall i :: 0 <= i < |init| ==> init[i] == actions[i];
    }
  }

  /** An action's rule demands `true` exactly when the action is required;
      otherwise it is `nullable|boolean`. */
  lemma {:induction false} ActionRulesValue(actions: seq<AccountAction>, i: nat)
    requires i < |actions|
    requires forall j :: i < j < |actions| ==> actions[j].id != actions[i].id
    ensures var m, a := ActionRules(actions), actions[i];
      EncodeKey(a.id) in m &&
      (m[EncodeKey(a.id)] == RequiredTrue <==> a.required) &&
      (!a.required ==> m[EncodeKey(a.id)] == NullableBoolean)
  {
    var init := actions[..|actions| - 1];
    if i < |actions| - 1 {
      ActionRulesValue(init, i);
      assert init[i] == actions[i];
      EncodeKeyInjective(actions[|actions| - 1].id, actions[i].id);
    }
  }
}

=== FILE: status_codes.dfy ===
/** The status code a new account starts in (`getBestStatusCode`): the
    highest code the account type grants to any role the user holds, kept
    only when it is one of the configured codes. */
module StatusCodes {

  datatype Role = Role(id: nat)

  /** A role allowed to use the account type, with the status code the
      pivot row gives accounts that role creates. */
  datatype RolePivot = RolePivot(roleId: nat, statusCode: int)

  /** `config('account.status_codes.list')` and `...default`. */
  datatype StatusConfig = StatusConfig(list: seq<int>, default: int)

  /** The ids of the user's roles, in order. */
  function RoleIds(roles: seq<Role>): (ids: seq<nat>)
    ensures |ids| == |roles| && forall i :: 0 <= i < |roles| ==> ids[i] == roles[i].id
  {
    if roles == [] then [] else RoleIds(roles[..|roles| - 1]) + [roles[|roles| - 1].id]
  }

  /** The query `rolesCanUsedAccountType()->whereIn('id', $ids)`: the pivots
      of the account type whose role is among `ids`, in their order. */
  function HeldPivots(pivots: seq<RolePivot>, ids: seq<nat>): seq<RolePivot>
  {
    if pivots == [] then []
    else
      var rest := HeldPivots(pivots[..|pivots| - 1], ids);
      var p := pivots[|pivots| - 1];
      if p.roleId in ids then rest + [p] else rest
  }

  /** The best code over `pivots` as the loop computes it: start from 0 and
      keep any strictly larger pivot code. */
  function BestCode(pivots: seq<RolePivot>): int
  {
    if pivots == [] then 0
    else
      var best := BestCode(pivots[..|pivots| - 1]);
      var code := pivots[|pivots| - 1].statusCode;
      if code > best then code else best
  }

  /** The code a new account of this type gets for a user with `roles`. */
  function StatusFor(roles: seq<Role>, pivots: seq<RolePivot>, config: StatusConfig): int
  {
    var best := BestCode(HeldPivots(pivots, RoleIds(roles)));
    if best in config.list then best else config.default
  }

  method GetBestStatusCode(roles: seq<Role>, pivots: seq<RolePivot>, config: StatusConfig)
    returns (code: int)
    ensures code == StatusFor(roles, pivots, config)
    ensures code in config.list || code == config.default
  {
    var userRoleIds: seq<nat> := [];
    for i := 0 to |roles|
      invariant userRoleIds == RoleIds(roles[..i])
    {
      assert roles[..i + 1][..i] == roles[..i];
      userRoleIds := userRoleIds + [roles[i].id];
    }
    assert roles[..|roles|] == roles;

    var accountRoles := HeldPivots(pivots, userRoleIds);

    var bestStatusCode := 0;
    for i := 0 to |accountRoles|
      invariant bestStatusCode == BestCode(accountRoles[..i])
    {
      assert accountRoles[..i + 1][..i] == accountRoles[..i];
      if accountRoles[i].statusCode > bestStatusCode {
        bestStatusCode := accountRoles[i].statusCode;
      }
    }
    assert accountRoles[..|accountRoles|] == accountRoles;

    code := if bestStatusCode in config.list then bestStatusCode else config.default;
  }

  /** The query keeps exactly the pivots of roles the user holds. */
  lemma {:induction false} HeldPivotsMembers(pivots: seq<RolePivot>, ids: seq<nat>)
    ensures forall p :: p in HeldPivots(pivots, ids) <==> p in pivots && p.roleId in ids
  {
    if pivots != [] {
      var init := pivots[..|pivots| - 1];
      HeldPivotsMembers(init, ids);
      assert pivots == init + [pivots[|pivots| - 1]];
    }
  }

  /** The loop computes the maximum of 0 and the pivot codes: it bounds
      every code, is never negative, and is 0 or one of the codes. */
  lemma {:induction false} BestCodeIsMaximum(pivots: seq<RolePivot>)
    ensures BestCode(pivots) >= 0
    ensures forall p :: p in pivots ==> p.statusCode <= BestCode(pivots)
    ensures BestCode(pivots) == 0 || exists p :: p in pivots && p.statusCode == BestCode(pivots)
  {
    if pivots != [] {
      var init := pivots[..|pivots| - 1];
      BestCodeIsMaximum(init);
      assert pivots == init + [pivots[|pivots| - 1]];
    }
  }

  /** The status is the maximum of 0 and the codes the account type grants
      to roles the user holds, when that maximum is configured; otherwise it
      is the configured default. */
  lemma StatusForIsMaximumOrDefault(roles: seq<Role>, pivots: seq<RolePivot>, config: StatusConfig, best: int)
    requires best >= 0
    requires forall p :: p in pivots && p.roleId in RoleIds(roles) ==> p.statusCode <= best
    requires best == 0 || exists p :: p in pivots && p.roleId in RoleIds(roles) && p.statusCode == best
    ensures StatusFor(roles, pivots, config) == if best in config.list then best else config.default
  {
    var held := HeldPivots(pivots, RoleIds(roles));
    HeldPivotsMembers(pivots, RoleIds(roles));
    BestCodeIsMaximum(held);
  }
}

=== FILE: sync_maps.dfy ===
/** The pivot "sync" maps the account controller builds from the request's
    dynamic fields: each request key is read back as an id, only ids of the
    account type's fields survive, and the value is stored JSON-encoded. */
module SyncMaps {
  import opened Common
  import opened FieldKeys

  /** The pivot row value `['value' => json_encode($value)]`; the encoding
      itself is kept symbolic. */
  datatype PivotValue = JsonEncoded(value: Json)

  /** A request's dynamic fields in their order (`$request->accountInfos ?? []`). */
  type Fields = seq<(string, Json)>

  /** The sync map after the loop has run over `fields`. */
  function SyncOf(fields: Fields, allowed: set<nat>): map<nat, PivotValue>
  {
    if fields == [] then map[]
    else
      var m := SyncOf(fields[..|fields| - 1], allowed);
      var (key, value) := fields[|fields| - 1];
      var id := DecodeKey(key);
      if id >= 0 && id as nat in allowed then m[id as nat := JsonEncoded(value)] else m
  }

  method BuildSync(fields: Fields, allowed: set<nat>) returns (sync: map<nat, PivotValue>)
    ensures sync == SyncOf(fields, allowed)
  {
    sync := map[];
    for i := 0 to |fields|
      invariant sync == SyncOf(fields[..i], allowed)
    {
      assert fields[..i + 1][..i] == fields[..i];
      var (key, value) := fields[i];
      var id := IntCast(Trim(key, PrefixChars));
      if id >= 0 && id as nat in allowed {
        sync := sync[id as nat := JsonEncoded(value)];
      }
    }
    assert fields[..|fields|] == fields;
  }

  /** The sync map holds exactly the allowed ids some request key reads as. */
  lemma {:induction false} SyncOfKeys(fields: Fields, allowed: set<nat>, id: nat)
    ensures id in SyncOf(fields, allowed) <==>
      id in allowed && exists i :: 0 <= i < |fields| && DecodeKey(fields[i].0) == id
  {
    if fields != [] {
      var init := fields[..|fields| - 1];
      SyncOfKeys(init, allowed, id);
      assert forall i :: 0 <= i < |init| ==> init[i] == fields[i];
    }
  }

  /** The value stored for an id is the encoding of the value of the last
      request key that reads as that id. */
  lemma {:induction false} SyncOfLastWins(fields: Fields, allowed: set<nat>, i: nat)
    requires i < |fields|
    requires DecodeKey(fields[i].0) >= 0 && DecodeKey(fields[i].0) as nat in allowed
    requires forall j :: i < j < |fields| ==> DecodeKey(fields[j].0) != DecodeKey(fields[i].0)
    ensures var id := DecodeKey(fields[i].0) as nat;
      id in SyncOf(fields, allowed) && SyncOf(fields, allowed)[id] == JsonEncoded(fields[i].1)
  {
    if i < |fields| - 1 {
      var init := fields[..|fields| - 1];
      assert init[i] == fields[i];
      SyncOfLastWins(init, allowed, i);
    }
  }

  /** For a request keyed as the rules are keyed (`"id" . $id`, with row ids,
      which are PHP `int`s), the sync map is the request restricted to the
      allowed ids, each value encoded. */
  lemma SyncOfEncodedKeys(fields: Fields, allowed: set<nat>, ids: seq<nat>)
    requires |ids| == |fields|
    requires forall i :: 0 <= i < |ids| ==> ids[i] <= PhpIntMax
    requires forall i :: 0 <= i < |fields| ==> fields[i].0 == EncodeKey(ids[i])
    requires forall i, j :: 0 <= i < j < |ids| ==> ids[i] != ids[j]
    ensures forall id :: id in SyncOf(fields, allowed) <==> id in allowed && id in ids
    ensures forall i :: 0 <= i < |ids| && ids[i] in allowed ==>
      SyncOf(fields, allowed)[ids[i]] == JsonEncoded(fields[i].1)
  {
    forall i | 0 <= i < |ids| ensures DecodeKey(fields[i].0) == ids[i] {
      DecodeEncodeKey(ids[i]);
    }
    forall id: nat ensures id in SyncOf(fields, allowed) <==> id in allowed && id in ids {
      SyncOfKeys(fields, allowed, id);
    }
    forall i | 0 <= i < |ids| && ids[i] in allowed
      ensures SyncOf(fields, allowed)[ids[i]] == JsonEncoded(fields[i].1)
    {
      SyncOfLastWins(fields, allowed, i);
    }
  }
}
